=== FILE: README.md ===
# Query executor of cyphernetes, modelled in Dafny

cyphernetes runs Cypher-like graph queries against a Kubernetes cluster. A
parsed query is a list of clauses. A `MATCH` clause holds node patterns
`(alias:Kind {key: value, ...})`. For each one the executor resolves the Kind
to a group/version/resource coordinate through API discovery. It turns the
properties into a namespace, a field selector and a label selector, lists the
matching resources, and binds the alias to the listed objects in a result map.
That map persists for the whole process. After each node pattern the map is
re-marshalled into a JSON snapshot. A `RETURN` clause evaluates JSONPath
expressions against the snapshot and writes each result into a nested output
document, keyed by the path's dot-separated segments.

This project models that executor, `cmd/k8s_query.go`, as pure functions
over immutable values:

- `Strings`: ASCII case folding, `strings.Join`, `strings.Split`, `strings.TrimSuffix`.
  Split and join are proved inverse to each other.
- `Discovery`: `findGVR` and `containsIgnoreCase`, a first-match search over the
  discovery listing (groups outer, resources inner).
- `Selectors`: the first half of `getNodeResouces`. This is the namespace
  removal loop exactly as the Go slice code behaves, plus the selector loop,
  both proved against plain reference definitions.
- `Projection`: the `ReturnClause` case of `Execute`. Paths are rooted, split
  and placed into the nested output document.
- `Executor`: the rest of `getNodeResouces`/`getK8sResources` and the clause
  loop of `Execute`. The process-wide variables `Namespace`, `allNamespaces`,
  `results` and `resultMapJson` (lines 127-130) become an explicit `State` that
  each call takes and returns. The discovery answer, the group-version parser,
  the label-selector parser and the list call are fields of a `Cluster` value.
  The JSONPath evaluator is a `Lookup` function parameter.
- `Scenarios`: worked queries over a one-resource listing (`pods`, Kind `Pod`,
  short name `po`).

## Behaviour as written

The model follows the Go code where a reader might expect otherwise:

- `Execute` discards the error returned by `getNodeResouces` (line 141). A
  selector conflict, an unknown Kind, a bad label selector or a failed list
  call does not abort the query. The pattern's alias keeps whatever it was
  bound to before, if anything. `results` is process-wide, so that can be
  a listing from an earlier pattern or an earlier query, and a later `RETURN`
  projects those items. Only an unknown clause type (lines 185-186) and
  run-time panics end a query. `Executor.MatchErrorIsDropped` and
  `Executor.RunNodesPanicIff` state this.
- The name/label conflict is detected only when a non-name constraint follows
  a name constraint. `{app: x, name: y}` is accepted
  (`Selectors.LabelBeforeNameAccepted`).
- The namespace removal loop (lines 195-200) shifts the slice's backing array
  while `range` keeps reading it. With at most one namespace constraint it
  equals a filter (`Selectors.RemoveSingleNamespace`). With more than one, the
  outcome depends on positions. After a removal, `range` still reads the old
  last slot, which now holds a stale copy. `list[i+1:]` panics when the loop
  reaches a namespace constraint at an index not below the shortened length.
  So `[ns a, ns b]` panics (`Selectors.NamespacePairPanics`), and so does
  `[ns a, x, ns b]` (`Selectors.SeparatedNamespacesPanic`). But in
  `[ns a, ns b, x]` the second namespace is shifted onto an index already
  visited. It stays in the list (`Selectors.SecondNamespaceSurvives`) and
  becomes the label term `namespace=b` (`Selectors.SecondNamespaceInLabels`).
- `Namespace` is a process-wide variable. A pattern without a namespace
  constraint is listed in whatever namespace an earlier pattern set. With
  `allNamespaces` set, the variable is reset to `""` before each list call.
  The namespace assignment happens before the conflict check, so it survives a
  failing pattern. `Executor.RunNode` states the namespace each pattern leaves,
  and `Executor.RunNodesAppend` that the next pattern starts from it.
- `UnstructuredContent()` returns the whole object, so items are stored with
  their `apiVersion` and `kind`; nothing is stripped. A pattern that lists no
  items binds a `nil` slice, which marshals to `null` (`Executor.EncodeRoundTrip`).
- An intermediate output key that already holds `nil` (a lookup that found
  JSON `null`) is replaced by a fresh map. One that holds any other non-map
  value makes the type assertion on line 180 panic. This is modelled as
  `Panic(NotAMap(segment))`.
- A path that starts with `$` but has no `.` after it (`$`, `$pods`) has no
  segments after the root and writes nothing. `$x.y` writes key `y`.

## Model

| member | source | states |
|---|---|---|
| Discovery.ContainsIgnoreCase | cmd/k8s_query.go:118-125 | true exactly when some element of the slice equals the string under case folding |
| Strings.EqualFoldLowered | cmd/k8s_query.go:96-103 | lower-casing the identifier before `EqualFold` does not change any comparison |
| Discovery.MatchesIgnoresCase | cmd/k8s_query.go:101-103 | whether a resource matches depends only on the lower-cased identifier |
| Discovery.FirstMatch | cmd/k8s_query.go:98-113 | returns a matching position with no matching position before it in loop order, and it is the only such position; none exactly when nothing in the listing matches |
| Discovery.FirstMatchUnique | cmd/k8s_query.go:98-99 | two identifiers matching the same resources have the same first match |
| Discovery.FindGvr | cmd/k8s_query.go:86-115 | a discovery failure is passed on; not-found exactly when no resource matches by plural name, Kind or short name; whenever a first match exists, a parsable group-version gives success with that group and version and the entry's plural name, and an unparsable one gives the invalid-group-version error naming it |
| Discovery.FindGvrIgnoresCase | cmd/k8s_query.go:96-114 | identifiers differing only in letter case give the same coordinate, or are both not found, or fail with the same error |
| Scenarios.PodFormsResolveAlike | cmd/k8s_query.go:98-109 | `pods`, `Pod`, `po`, `PODS` and `Po` all resolve to `v1` `pods` |
| Scenarios.UnknownKindNotFound | cmd/k8s_query.go:114 | an identifier that is no form of any listed resource gives the not-found error naming it |
| Selectors.RemoveNamespaces | cmd/k8s_query.go:194-202 | the removal loop never yields more constraints than it was given, and fails only by panicking |
| Selectors.RemoveSingleNamespace | cmd/k8s_query.go:194-201 | with at most one namespace constraint, its value becomes the namespace and every other constraint stays, in order |
| Selectors.RemoveOnlyNamespaceAt | cmd/k8s_query.go:195-200 | removing the only namespace constraint closes the gap it leaves in the list |
| Selectors.NamespacePairPanics | cmd/k8s_query.go:195-200 | the list `[ns a, ns b]` makes the second removal slice past the one-element list |
| Selectors.SeparatedNamespacesPanic | cmd/k8s_query.go:195-200 | the list `[ns a, x, ns b]` removes `ns b` once, then reads its stale copy and slices past the one-element list |
| Selectors.SecondNamespaceSurvives | cmd/k8s_query.go:195-200 | in `[ns a, ns b, x]` the shift moves `ns b` onto the index already visited, so it stays in the list |
| Selectors.SecondNamespaceInLabels | cmd/k8s_query.go:195-217 | for `[ns a, ns b, x]` with `x` a label constraint the namespace is `a`, the field selector is empty and the label selector is `namespace=b,` followed by `x`'s term |
| Selectors.BuildSelectors | cmd/k8s_query.go:204-221 | fails with the conflict error exactly when a non-name constraint follows a name constraint; otherwise the field selector is the comma-join of `metadata.name=v` over the name constraints and the label selector the comma-join of `k=v` over the rest, in order, with no trailing comma |
| Selectors.ScanSpec | cmd/k8s_query.go:207-219 | the accumulating loop appends `term,` per constraint to its selector and fails once a non-name constraint follows a name |
| Strings.TrimTerminatedIsJoin | cmd/k8s_query.go:210-221 | appending `x,` per term and trimming one trailing comma is the comma-join, and empty for no terms |
| Selectors.LabelBeforeNameAccepted | cmd/k8s_query.go:208-217 | a label constraint before a name constraint is accepted and split into both selectors |
| Projection.RootingIdempotent | cmd/k8s_query.go:157-162 | rooting an already rooted path changes nothing: same path, same segments |
| Projection.ImplicitRoot | cmd/k8s_query.go:157-160 | a path without `$` projects exactly like the same path with `$.` in front |
| Strings.JoinSplit | cmd/k8s_query.go:162 | joining the pieces of a split with the separator gives the string back, and no piece holds the separator |
| Strings.SplitJoin | cmd/k8s_query.go:162 | splitting a join of separator-free pieces gives the pieces back |
| Projection.UnrootedSegments | cmd/k8s_query.go:157-162 | the segments of a path without `$` are all of its dot-separated pieces |
| Projection.RootedSegments | cmd/k8s_query.go:162 | the segments of `$.` followed by joined dot-free segments are those segments |
| Projection.PlaceStores | cmd/k8s_query.go:166-179 | after a successful drill-down the value at the full key path is the leaf |
| Projection.PlaceKeepsOthers | cmd/k8s_query.go:176-180 | every key path diverging from the projected one reads as before: existing maps are reused and untouched keys stay |
| Projection.PlaceFailsIffBlocked | cmd/k8s_query.go:177-180 | the drill-down fails exactly when some proper prefix of the path ends at a value that is neither a map nor `nil` |
| Projection.PlaceSpec | cmd/k8s_query.go:164-181 | fails exactly when blocked; on success stores the leaf and leaves diverging paths unchanged |
| Projection.PlaceThreeFresh | cmd/k8s_query.go:176-179 | three segments into an empty document give two fresh nested maps around the leaf |
| Projection.ProjectPath | cmd/k8s_query.go:156-182 | a path without segments leaves the output as it was; otherwise the output fails exactly when blocked, the leaf is the lookup of the rooted path or `[]`, and diverging paths are unchanged; only panics fail |
| Projection.ProjectUnrooted | cmd/k8s_query.go:156-182 | an unrooted path of dot-free segments is placed at exactly those segments, looked up at `$.` plus the path |
| Projection.ProjectPaths | cmd/k8s_query.go:156-183 | the paths of one return clause fail only by panicking |
| Projection.ProjectPathsFold | cmd/k8s_query.go:156-183 | the paths of one return clause share one output document: a key path no path reaches reads as before, and each path's leaf (lookup or `[]`) stays at its segments unless a later path reaches them again |
| Projection.PlacePrefixObject | cmd/k8s_query.go:176-180 | after a successful drill-down every proper prefix of the path holds a map |
| Projection.PlaceKeepsUnblocked | cmd/k8s_query.go:164-181 | placing one path cannot make the type assertion fail for a later path, unless the later path runs through the leaf just stored |
| Projection.ProjectPathsSucceeds | cmd/k8s_query.go:156-183 | a return clause succeeds when no path is blocked in the output it starts from and no path runs through the leaf an earlier path stored |
| Projection.SiblingPaths | cmd/k8s_query.go:164-181 | `$.a.b.c1` then `$.a.b.c2` give `{a: {b: {c1: leaf1, c2: leaf2}}}`: the second path reuses the maps the first created |
| Executor.EncodeRoundTrip | cmd/k8s_query.go:232-244 | marshalling the listed items loses nothing: reading the entry back as a list of objects gives the items, with `null` read as none |
| Executor.SnapshotUpdate | cmd/k8s_query.go:241-244 | re-marshalling after binding one alias changes only that alias's entry of the snapshot |
| Executor.InitialState | cmd/k8s_query.go:127-130 | the process starts with no results and a `null` snapshot, which is consistent |
| Executor.RunNode | cmd/k8s_query.go:193-249 | a list call is made exactly when namespace extraction, the selectors, the Kind and the label selector all succeed, whatever the number of namespace constraints; the call then targets the resolved coordinate in the namespace left behind, with the field selector and the parsed label selector built from the constraints that namespace removal left; the list error is passed on as such; on success the alias is bound to the listed items and every other alias is unchanged; on any error results and snapshot are unchanged; the namespace left behind is the pattern's namespace constraint or the one before, or `""` once a list call is made under all namespaces; it panics exactly when namespace removal does; the snapshot stays that of the results |
| Executor.ConflictMakesNoRequest | cmd/k8s_query.go:212-216 | a selector conflict makes no list call, returns the conflict error and leaves results and snapshot as they were, with the namespace already applied |
| Executor.NamespaceScopesRequest | cmd/k8s_query.go:194-226 | with at most one namespace constraint, a list call is made exactly when the remaining constraints have no name-then-other conflict, the Kind resolves and their label selector parses; the call is scoped to the namespace constraint's value (or `""` for all namespaces, or the namespace left over from earlier patterns), and both selectors come from the remaining constraints, none of which is a namespace constraint |
| Executor.RunNodes | cmd/k8s_query.go:138-142 | the node patterns of a match clause make at most one list call each, keep the snapshot consistent, and can fail only with a panic |
| Executor.RunNodesOne | cmd/k8s_query.go:139-142 | a match clause of one pattern is that pattern's step, with its list call, and its error dropped unless it is a panic |
| Executor.RunNodesAppend | cmd/k8s_query.go:139-142 | patterns run in sequence: `xs + ys` runs `xs`, then, unless it panicked, `ys` from the state `xs` left, so bindings and the namespace carry over |
| Executor.RunNodesPanicIff | cmd/k8s_query.go:139-142 | the node loop runs to the end exactly when no pattern's namespace removal panics; every other error of a pattern is dropped and the next pattern runs |
| Executor.RunNodesFrame | cmd/k8s_query.go:139-142 | an alias that no pattern of the clause names keeps its binding, or stays unbound |
| Executor.MatchErrorIsDropped | cmd/k8s_query.go:139-142 | a match clause whose pattern has conflicting selectors still gives an empty output document with no list call |
| Executor.Run | cmd/k8s_query.go:136-190 | the query fails only with an unknown clause type or a panic, always fails if any clause is of an unknown type, keeps the snapshot consistent and only adds list calls |
| Executor.RunAppend | cmd/k8s_query.go:136-190 | a query `a + b` runs `a`, then, if `a` succeeded, `b` from the state, list calls and output document `a` left |
| Executor.MatchThenReturn | cmd/k8s_query.go:132-190 | for `MATCH ... RETURN ...` the output is the return paths projected into a fresh document from the snapshot the match clause leaves, which is the marshalled results once any alias is bound; a panic of the match clause is the result instead |
| Executor.Execute | cmd/k8s_query.go:132-191 | fails only with an unknown clause type or a panic, and always fails when a clause of unknown type is present; the snapshot stays that of the results |
| Executor.UnsupportedClauseFails | cmd/k8s_query.go:185-186 | a clause that is neither match nor return fails the query wherever it stands, and no output document is returned |
| Executor.ReturnOnlyIsReadOnly | cmd/k8s_query.go:152-183 | return clauses make no list call and change no state |
| Scenarios.PodsInNamespace | cmd/k8s_query.go:132-191 | `MATCH (p:Pod {namespace: ns}) RETURN p.f.g` makes one list call, scoped to `ns` with empty selectors, binds `p` to the listed pods and outputs `{p: {f: {g: lookup}}}` |

## Left out

- `NewQueryExecutor` (lines 23-46): kubeconfig, clientset and dynamic-client construction are file and configuration I/O.
- Discovery: `ServerPreferredResources` is a network call. It is modelled as one fixed answer, a `Result` value, shared by every node pattern of a query. The source calls it once per node pattern.
- Listing: the dynamic `List` call is a network call. It is modelled as the `Cluster.list` function from the request to the listed objects or an error message.
- Parsing: `schema.ParseGroupVersion` and the label-selector parsing chain (`ParseToLabelSelector`, `LabelSelectorAsSelector`, `String()`) are library code. They are modelled as functions that may fail, with no further semantics.
- JSONPath: `jsonpath.JsonPathLookup` is library code, modelled as the uninterpreted `Lookup` function. So the concrete outputs it would produce for two pods are not derived.
- JSON encoding: `json.Marshal`/`json.Unmarshal` are not modelled. The snapshot is the tree itself, so a marshalling error cannot occur. JSON numbers are integers; floating point is not modelled.
- Discovery.Matches: case folding is ASCII only. Unicode simple folding in `strings.EqualFold` and non-ASCII lower-casing in `strings.ToLower` are not modelled.
- Selectors.Constraint: values are strings. Formatting other scalars with `%s` and the panic of `.(string)` on a non-string namespace value are not modelled.
- Projection.Place: the output document is a value tree. Aliasing is not modelled: a lookup that returns an object shares it with the snapshot tree, and a later path drilling into that object mutates both.
- Executor.RunNode: after a panic the model returns the input state. The Go process stops, and the state it would leave is not meaningful.
- The in-place rewrite of the node pattern's property list (line 199) goes through the `*NodePattern` pointer, so it persists in the caller's parsed query after `Execute` returns. Running that query again lists the pattern in whatever namespace the process-wide `Namespace` then holds. The model takes the query by value and does not return it, so this persistence is not modelled.
- A missing property list (`Properties == nil`) is treated as an empty one. Both give empty selectors.
- Logging (`logDebug`, `debugLog`, `fmt.Println`) has no semantic content.
- The commented-out Create, Set and Delete clauses are not implemented in the source.

=== FILE: discovery.dfy ===
/**
 * Kind resolution (`findGVR`, `containsIgnoreCase`): a first-match search
 * over the discovery listing, groups outer and resources inner, comparing the
 * identifier with each resource's plural name, Kind and short names without
 * regard to letter case.
 */
module Discovery {
  import opened Wrappers
  import opened Strings
  import opened Errors

  datatype ApiResource = ApiResource(name: string, kind: string, shortNames: seq<string>)

  /** One group-version of the discovery listing and the resources it serves. */
  datatype ApiResourceList = ApiResourceList(groupVersion: string, resources: seq<ApiResource>)

  datatype GroupVersion = GroupVersion(group: string, version: string)

  /** The coordinate the dynamic client is addressed with. */
  datatype Gvr = Gvr(group: string, version: string, resource: string)

  /** A position in the listing: the group-version, then the resource inside it. */
  datatype Pos = Pos(group: nat, index: nat)

  function ContainsIgnoreCase(slice: seq<string>, s: string): (r: bool)
    ensures r <==> exists i :: 0 <= i < |slice| && EqualFold(slice[i], s)
  {
    if |slice| == 0 then false
    else EqualFold(slice[0], s) || ContainsIgnoreCase(slice[1..], s)
  }

  /** The three-way test of the inner loop body. */
  predicate Matches(r: ApiResource, id: string) {
    || EqualFold(r.name, ToLower(id))
    || EqualFold(r.kind, id)
    || ContainsIgnoreCase(r.shortNames, ToLower(id))
  }

  predicate MatchAt(lists: seq<ApiResourceList>, p: Pos, id: string) {
    && p.group < |lists|
    && p.index < |lists[p.group].resources|
    && Matches(lists[p.group].resources[p.index], id)
  }

  /** `p` is visited before `q` by the nested loops. */
  predicate Before(p: Pos, q: Pos) {
    p.group < q.group || (p.group == q.group && p.index < q.index)
  }

  ghost predicate IsFirstMatch(lists: seq<ApiResourceList>, p: Pos, id: string) {
    MatchAt(lists, p, id) && forall q :: MatchAt(lists, q, id) ==> !Before(q, p)
  }

  /** The first index at or after `from` whose resource matches. */
  function FirstIndexFrom(rs: seq<ApiResource>, id: string, from: nat): (r: Option<nat>)
    requires from <= |rs|
    ensures r.Some? ==> from <= r.value < |rs| && Matches(rs[r.value], id)
    ensures r.Some? ==> forall k :: from <= k < r.value ==> !Matches(rs[k], id)
    ensures r.None? ==> forall k :: from <= k < |rs| ==> !Matches(rs[k], id)
    decreases |rs| - from
  {
    if from == |rs| then None
    else if Matches(rs[from], id) then Some(from)
    else FirstIndexFrom(rs, id, from + 1)
  }

  /** The first matching position in group-versions `from` and later. */
  function FirstMatchFrom(lists: seq<ApiResourceList>, id: string, from: nat): (r: Option<Pos>)
    requires from <= |lists|
    ensures r.Some? ==> from <= r.value.group && MatchAt(lists, r.value, id)
    ensures r.Some? ==> forall q: Pos :: from <= q.group && MatchAt(lists, q, id) ==> !Before(q, r.value)
    ensures r.None? ==> forall q: Pos :: from <= q.group ==> !MatchAt(lists, q, id)
    decreases |lists| - from
  {
    if from == |lists| then None
    else match FirstIndexFrom(lists[from].resources, id, 0)
      case Some(k) => Some(Pos(from, k))
      case None => FirstMatchFrom(lists, id, from + 1)
  }

  function FirstMatch(lists: seq<ApiResourceList>, id: string): (r: Option<Pos>)
    ensures r.Some? ==> IsFirstMatch(lists, r.value, id)
    ensures r.None? <==> forall q :: !MatchAt(lists, q, id)
    ensures forall p :: IsFirstMatch(lists, p, id) ==> r == Some(p)
  {
    FirstMatchFrom(lists, id, 0)
  }

  /**
   * `findGVR`: the group and version of the first matching entry's
   * group-version, with that entry's plural name as the resource.
   */
  function FindGvr(discovery: Result<seq<ApiResourceList>, string>,
                   parseGroupVersion: string -> Option<GroupVersion>,
                   id: string): (r: Result<Gvr, QueryError>)
    ensures discovery.Failure? ==> r == Failure(DiscoveryFailed(discovery.error))
    ensures discovery.Success? ==>
      (r == Failure(ResourceNotFound(id)) <==> forall q :: !MatchAt(discovery.value, q, id))
    ensures r.Success? ==>
      exists p :: IsFirstMatch(discovery.value, p, id)
        && r.value.resource == discovery.value[p.group].resources[p.index].name
        && parseGroupVersion(discovery.value[p.group].groupVersion)
             == Some(GroupVersion(r.value.group, r.value.version))
    ensures r.Failure? && r.error.InvalidGroupVersion? ==>
      exists p :: IsFirstMatch(discovery.value, p, id)
        && r.error.groupVersion == discovery.value[p.group].groupVersion
        && parseGroupVersion(r.error.groupVersion).None?
    ensures discovery.Success? ==> forall p :: IsFirstMatch(discovery.value, p, id) ==>
      var entry := discovery.value[p.group];
      && (parseGroupVersion(entry.groupVersion).Some? ==>
            r == Success(Gvr(parseGroupVersion(entry.groupVersion).value.group,
                             parseGroupVersion(entry.groupVersion).value.version,
                             entry.resources[p.index].name)))
      && (parseGroupVersion(entry.groupVersion).None? ==>
            r == Failure(InvalidGroupVersion(entry.groupVersion)))
  {
    match discovery
    case Failure(msg) => Failure(DiscoveryFailed(msg))
    case Success(lists) =>
      match FirstMatch(lists, id)
      case None => Failure(ResourceNotFound(id))
      case Some(p) =>
        var entry := lists[p.group];
        match parseGroupVersion(entry.groupVersion)
        case None => Failure(InvalidGroupVersion(entry.groupVersion))
        case Some(gv) => Success(Gvr(gv.group, gv.version, entry.resources[p.index].name))
  }

  /** The first match is unique: the nested loops visit positions in a total order. */
  lemma FirstMatchUnique(lists: seq<ApiResourceList>, p: Pos, q: Pos, a: string, b: string)
    requires IsFirstMatch(lists, p, a) && IsFirstMatch(lists, q, b)
    requires forall r :: MatchAt(lists, r, a) <==> MatchAt(lists, r, b)
    ensures p == q
  {
    assert MatchAt(lists, q, a);
    assert MatchAt(lists, p, b);
  }

  /** Only the lower-cased identifier decides whether a resource matches. */
  lemma MatchesIgnoresCase(r: ApiResource, a: string, b: string)
    requires ToLower(a) == ToLower(b)
    ensures Matches(r, a) <==> Matches(r, b)
  {
    EqualFoldLowered(r.kind, a);
    EqualFoldLowered(r.kind, b);
  }

  /** Identifiers that differ only in letter case have the same first match. */
  lemma {:induction false} FirstMatchIgnoresCase(lists: seq<ApiResourceList>, a: string, b: string)
    requires ToLower(a) == ToLower(b)
    ensures FirstMatch(lists, a) == FirstMatch(lists, b)
  {
    forall q | true
      ensures MatchAt(lists, q, a) <==> MatchAt(lists, q, b)
    {
      if q.group < |lists| && q.index < |lists[q.group].resources| {
        MatchesIgnoresCase(lists[q.group].resources[q.index], a, b);
      }
    }
    var fa := FirstMatch(lists, a);
    var fb := FirstMatch(lists, b);
    assert fa.None? <==> fb.None?;
    if fa.Some? {
      FirstMatchUnique(lists, fa.value, fb.value, a, b);
    }
  }

  /**
   * Two identifiers that differ only in letter case resolve alike: the same
   * coordinate, or both not found, or the same discovery or group-version
   * error. Only the identifier quoted in a not-found error differs.
   */
  lemma {:induction false} FindGvrIgnoresCase(discovery: Result<seq<ApiResourceList>, string>,
                           parseGroupVersion: string -> Option<GroupVersion>,
                           a: string, b: string)
    requires ToLower(a) == ToLower(b)
    ensures var ra := FindGvr(discovery, parseGroupVersion, a);
            var rb := FindGvr(discovery, parseGroupVersion, b);
            && (ra.Success? <==> rb.Success?)
            && (ra.Success? ==> ra.value == rb.value)
            && (ra.Failure? ==> (ra.error.ResourceNotFound? <==> rb.error.ResourceNotFound?))
            && (ra.Failure? && !ra.error.ResourceNotFound? ==> ra.error == rb.error)
  {
    if discovery.Success? {
      FirstMatchIgnoresCase(discovery.value, a, b);
    }
  }
}

=== FILE: errors.dfy ===
/** The ways a query, or one node pattern of it, can go wrong. */
module Errors {

  /** A Go run-time panic: the process stops, no error value is returned. */
  datatype PanicReason =
    | SliceBoundsOutOfRange(low: nat, length: nat)  // `s[low:]` with low > len(s)
    | NotAMap(segment: string)                      // failed `.(map[string]interface{})` assertion

  datatype QueryError =
    | DiscoveryFailed(message: string)
    | InvalidGroupVersion(groupVersion: string)
    | ResourceNotFound(identifier: string)
    | NameSelectorConflict
    | InvalidLabelSelector(message: string)
    | ListFailed(message: string)
    | UnknownClause(clauseType: string)
    | Panic(reason: PanicReason)
}

=== FILE: executor.dfy ===
/**
 * The query executor (`Execute`, `getNodeResouces`, `getK8sResources`):
 * match clauses list resources per node pattern and accumulate them under
 * the pattern's alias; return clauses project paths of the accumulated
 * snapshot into the output document.
 *
 * The process-wide variables `Namespace`, `allNamespaces`, `results` and
 * `resultMapJson` are the explicit `State`; the discovery listing and the
 * foreign parsers and list call are the `Cluster`.
 */
module Executor {
  import opened Wrappers
  import opened Strings
  import opened Errors
  import opened JsonTree
  import opened Discovery
  import opened Selectors
  import opened Projection

  datatype NodePattern = NodePattern(alias: string, kind: string, constraints: seq<Constraint>)

  /** The clause variants; `Unsupported` stands for any other clause type. */
  datatype Clause =
    | Match(nodes: seq<NodePattern>)
    | Return(paths: seq<string>)
    | Unsupported(typeName: string)

  /** A flattened resource: the `UnstructuredContent()` map of one list item. */
  type Document = map<string, Json>

  /** The arguments of one dynamic-client `List` call. */
  datatype ListRequest = ListRequest(resource: Gvr, namespace: string, fieldSelector: string, labelSelector: string)

  /**
   * What the executor asks of the cluster and of foreign libraries.
   * `parseLabelSelector` is `ParseToLabelSelector` then `LabelSelectorAsSelector`
   * then `String()`; `discovery` is the answer of `ServerPreferredResources`.
   */
  datatype Cluster = Cluster(
    discovery: Result<seq<ApiResourceList>, string>,
    parseGroupVersion: string -> Option<GroupVersion>,
    parseLabelSelector: string -> Result<string, string>,
    list: ListRequest -> Result<seq<Document>, string>)

  datatype State = State(
    namespace: string,
    allNamespaces: bool,
    results: map<string, seq<Document>>,
    snapshot: Json)

  /** The listed items as `json.Marshal` writes them: a `nil` slice for no items is `null`. */
  function Encode(items: seq<Document>): (r: Json)
    ensures |items| == 0 <==> r.Null?
    ensures |items| > 0 ==> r.Array? && |r.items| == |items|
    ensures |items| > 0 ==> forall i :: 0 <= i < |items| ==> r.items[i] == Object(items[i])
  {
    if |items| == 0 then Null else Array(seq(|items|, i requires 0 <= i < |items| => Object(items[i])))
  }

  /** The accumulated results, marshalled and unmarshalled back into a tree. */
  function Snapshot(results: map<string, seq<Document>>): (r: Json)
    ensures r.Object? && r.fields.Keys == results.Keys
    ensures forall a :: a in results ==> r.fields[a] == Encode(results[a])
  {
    Object(map a | a in results :: Encode(results[a]))
  }

  /**
   * Reading one snapshot entry back as a list of objects, as a JSONPath
   * lookup over it sees them: `null` is no items, anything but an array of
   * objects is unreadable.
   */
  function Decode(j: Json): (r: Option<seq<Document>>)
    ensures r.Some? ==> j.Null? || j.Array?
  {
    match j
    case Null => Some([])
    case Array(items) =>
      if forall i :: 0 <= i < |items| ==> items[i].Object?
      then Some(seq(|items|, i requires 0 <= i < |items| => items[i].fields))
      else None
    case _ => None
  }

  /** Marshalling the listed items loses nothing: decoding gives them back. */
  lemma EncodeRoundTrip(items: seq<Document>)
    ensures Decode(Encode(items)) == Some(items)
  {
    if |items| > 0 {
      var r := Encode(items).items;
      assert forall i :: 0 <= i < |r| ==> r[i].Object? && r[i].fields == items[i];
      var back := seq(|r|, i requires 0 <= i < |r| => r[i].fields);
      assert back == items;
    }
  }

  /**
   * Rebuilding the snapshot after binding one alias changes only that
   * alias's entry.
   */
  lemma SnapshotUpdate(results: map<string, seq<Document>>, alias: string, items: seq<Document>)
    ensures Snapshot(results[alias := items]) == Object(Snapshot(results).fields[alias := Encode(items)])
  {
  }

  /** The snapshot is that of the results, or the initial empty buffer (`null`). */
  predicate Consistent(st: State) {
    st.snapshot == Snapshot(st.results) || (st.snapshot == Null && st.results == map[])
  }

  function InitialState(namespace: string, allNamespaces: bool): (st: State)
    ensures Consistent(st)
  {
    State(namespace, allNamespaces, map[], Null)
  }

  /** One node pattern: the state afterwards, the list call made if any, and the error returned if any. */
  datatype NodeStep = NodeStep(state: State, request: Option<ListRequest>, error: Option<QueryError>)

  /**
   * `getNodeResouces` with `getK8sResources`: namespace extraction, selectors,
   * kind resolution, label-selector parsing, the list call, and on success the
   * alias bound to the listed items with the snapshot rebuilt.
   */
  function RunNode(c: Cluster, st: State, n: NodePattern): (step: NodeStep)
    ensures step.request.Some? <==>
      && RemoveNamespaces(n.constraints).Success?
      && BuildSelectors(RemoveNamespaces(n.constraints).value.remaining).Success?
      && FindGvr(c.discovery, c.parseGroupVersion, n.kind).Success?
      && c.parseLabelSelector(BuildSelectors(RemoveNamespaces(n.constraints).value.remaining).value.labels).Success?
    ensures step.request.Some? <==> step.error.None? || step.error.value.ListFailed?
    ensures (step.error.Some? && step.error.value.Panic?) <==> RemoveNamespaces(n.constraints).Failure?
    ensures RemoveNamespaces(n.constraints).Success? ==>
      step.state.namespace
        == if step.request.Some? && st.allNamespaces then ""
           else RemoveNamespaces(n.constraints).value.namespace.GetOr(st.namespace)
    ensures
      var ex := RemoveNamespaces(n.constraints);
      ex.Success? ==>
      var sel := BuildSelectors(ex.value.remaining);
      var gvr := FindGvr(c.discovery, c.parseGroupVersion, n.kind);
      sel.Success? && gvr.Success? && c.parseLabelSelector(sel.value.labels).Success? ==>
      step.request == Some(ListRequest(gvr.value, step.state.namespace, sel.value.fields,
                                       c.parseLabelSelector(sel.value.labels).value))
    ensures step.request.Some? ==>
      && (step.error.None? <==> c.list(step.request.value).Success?)
      && (step.error.Some? ==> step.error.value == ListFailed(c.list(step.request.value).error))
    ensures step.error.None? ==>
      && c.list(step.request.value).Success?
      && n.alias in step.state.results
      && step.state.results[n.alias] == c.list(step.request.value).value
      && forall a :: a != n.alias ==>
           (a in step.state.results <==> a in st.results)
           && (a in st.results ==> step.state.results[a] == st.results[a])
    ensures step.error.Some? ==> step.state.results == st.results && step.state.snapshot == st.snapshot
    ensures step.state.allNamespaces == st.allNamespaces
    ensures Consistent(st) ==> Consistent(step.state)
  {
    match RemoveNamespaces(n.constraints)
    case Failure(e) => NodeStep(st, None, Some(e))
    case Success(ex) =>
      var st1 := if ex.namespace.Some? then st.(namespace := ex.namespace.value) else st;
      match BuildSelectors(ex.remaining)
      case Failure(e) => NodeStep(st1, None, Some(e))
      case Success(sel) =>
        match FindGvr(c.discovery, c.parseGroupVersion, n.kind)
        case Failure(e) => NodeStep(st1, None, Some(e))
        case Success(gvr) =>
          match c.parseLabelSelector(sel.labels)
          case Failure(msg) => NodeStep(st1, None, Some(InvalidLabelSelector(msg)))
          case Success(labels) =>
            var st2 := if st1.allNamespaces then st1.(namespace := "") else st1;
            var request := ListRequest(gvr, st2.namespace, sel.fields, labels);
            match c.list(request)
            case Failure(msg) => NodeStep(st2, Some(request), Some(ListFailed(msg)))
            case Success(items) =>
              var results := st2.results[n.alias := items];
              NodeStep(st2.(results := results, snapshot := Snapshot(results)), Some(request), None)
  }

  /** A match clause: its node patterns in order, with the list calls they made. */
  datatype MatchStep = MatchStep(state: State, requests: seq<ListRequest>, panic: Option<QueryError>)

  /**
   * The node-pattern loop of a match clause. The error each pattern returns
   * is dropped; only a panic stops the loop.
   */
  function RunNodes(c: Cluster, st: State, nodes: seq<NodePattern>): (m: MatchStep)
    ensures m.panic.Some? ==> m.panic.value.Panic?
    ensures m.state.allNamespaces == st.allNamespaces
    ensures Consistent(st) ==> Consistent(m.state)
    ensures |m.requests| <= |nodes|
    decreases |nodes|
  {
    if |nodes| == 0 then MatchStep(st, [], None)
    else
      var step := RunNode(c, st, nodes[0]);
      var made := if step.request.Some? then [step.request.value] else [];
      if step.error.Some? && step.error.value.Panic? then MatchStep(step.state, made, step.error)
      else
        var rest := RunNodes(c, step.state, nodes[1..]);
        MatchStep(rest.state, made + rest.requests, rest.panic)
  }

  /** A match clause of one node pattern is that pattern's step, its error dropped unless it is a panic. */
  lemma RunNodesOne(c: Cluster, st: State, n: NodePattern)
    ensures var step := RunNode(c, st, n);
            RunNodes(c, st, [n])
              == MatchStep(step.state, if step.request.Some? then [step.request.value] else [],
                           if step.error.Some? && step.error.value.Panic? then step.error else None)
  {
    assert [n][1..] == [];
  }

  /**
   * The node loop runs patterns in sequence: `xs + ys` runs `xs`, then, unless
   * that panicked, `ys` from the state `xs` left, so later patterns see the
   * bindings and the namespace of earlier ones.
   */
  lemma {:induction false} RunNodesAppend(c: Cluster, st: State, xs: seq<NodePattern>, ys: seq<NodePattern>)
    ensures var m := RunNodes(c, st, xs);
            var r := RunNodes(c, m.state, ys);
            RunNodes(c, st, xs + ys)
              == if m.panic.Some? then m else MatchStep(r.state, m.requests + r.requests, r.panic)
    decreases |xs|
  {
    if |xs| == 0 {
      assert xs + ys == ys;
    } else {
      var all := xs + ys;
      assert all[0] == xs[0] && all[1..] == xs[1..] + ys;
      var step := RunNodesCons(c, st, xs);
      var _ := RunNodesCons(c, st, all);
      if !(step.error.Some? && step.error.value.Panic?) {
        var made := if step.request.Some? then [step.request.value] else [];
        var m1 := RunNodes(c, step.state, xs[1..]);
        var big := RunNodes(c, step.state, xs[1..] + ys);
        RunNodesAppend(c, step.state, xs[1..], ys);
        assert RunNodes(c, st, xs) == MatchStep(m1.state, made + m1.requests, m1.panic);
        assert RunNodes(c, st, all) == MatchStep(big.state, made + big.requests, big.panic);
        if m1.panic.None? {
          var r := RunNodes(c, m1.state, ys);
          assert big == MatchStep(r.state, m1.requests + r.requests, r.panic);
          ConcatAssoc(made, m1.requests, r.requests);
        }
      }
    }
  }

  lemma ConcatAssoc(a: seq<ListRequest>, b: seq<ListRequest>, c: seq<ListRequest>)
    ensures a + (b + c) == (a + b) + c
  {
  }

  /** One round of the node loop, with the pattern's step named. */
  lemma RunNodesCons(c: Cluster, st: State, nodes: seq<NodePattern>) returns (step: NodeStep)
    requires |nodes| > 0
    ensures step == RunNode(c, st, nodes[0])
    ensures var made := if step.request.Some? then [step.request.value] else [];
            var rest := RunNodes(c, step.state, nodes[1..]);
            RunNodes(c, st, nodes)
              == if step.error.Some? && step.error.value.Panic? then MatchStep(step.state, made, step.error)
                 else MatchStep(rest.state, made + rest.requests, rest.panic)
  {
    step := RunNode(c, st, nodes[0]);
  }

  /** Every alias that no node pattern of the clause names keeps its binding, or stays unbound. */
  lemma {:induction false} RunNodesFrame(c: Cluster, st: State, nodes: seq<NodePattern>, a: string)
    requires forall k :: 0 <= k < |nodes| ==> nodes[k].alias != a
    ensures var m := RunNodes(c, st, nodes);
            && (a in m.state.results <==> a in st.results)
            && (a in st.results ==> m.state.results[a] == st.results[a])
    decreases |nodes|
  {
    if |nodes| > 0 {
      var step := RunNode(c, st, nodes[0]);
      assert nodes[0].alias != a;
      if !(step.error.Some? && step.error.value.Panic?) {
        forall k | 0 <= k < |nodes[1..]|
          ensures nodes[1..][k].alias != a
        {
          assert nodes[1..][k] == nodes[k + 1];
        }
        RunNodesFrame(c, step.state, nodes[1..], a);
      }
    }
  }

  /**
   * The node loop runs to the end exactly when no pattern's namespace
   * removal panics: every other error of a pattern is dropped and the loop
   * goes on with the next pattern.
   */
  lemma {:induction false} RunNodesPanicIff(c: Cluster, st: State, nodes: seq<NodePattern>)
    ensures RunNodes(c, st, nodes).panic.None?
        <==> forall k :: 0 <= k < |nodes| ==> RemoveNamespaces(nodes[k].constraints).Success?
    decreases |nodes|
  {
    if |nodes| > 0 {
      var rest := nodes[1..];
      var step := RunNodesPanicCons(c, st, nodes);
      RunNodesPanicIff(c, step.state, rest);
      assert forall k :: 1 <= k < |nodes| ==> nodes[k] == rest[k - 1];
    }
  }

  /** One round of the node loop: it stops here exactly when this pattern's removal panics. */
  lemma RunNodesPanicCons(c: Cluster, st: State, nodes: seq<NodePattern>) returns (step: NodeStep)
    requires |nodes| > 0
    ensures step == RunNode(c, st, nodes[0])
    ensures RunNodes(c, st, nodes).panic.None?
        <==> RemoveNamespaces(nodes[0].constraints).Success? && RunNodes(c, step.state, nodes[1..]).panic.None?
  {
    step := RunNode(c, st, nodes[0]);
  }

  /** A whole query: the state afterwards, every list call made, and the output document or the error. */
  datatype Outcome = Outcome(state: State, requests: seq<ListRequest>, result: Result<Document, QueryError>)

  predicate HasUnsupported(clauses: seq<Clause>) {
    exists i :: 0 <= i < |clauses| && clauses[i].Unsupported?
  }

  /** The clause loop of `Execute`, from the output and list calls so far. */
  function Run(c: Cluster, lookup: Lookup, st: State, clauses: seq<Clause>,
               out: Document, requests: seq<ListRequest>): (o: Outcome)
    ensures o.result.Failure? ==> o.result.error.Panic? || o.result.error.UnknownClause?
    ensures HasUnsupported(clauses) ==> o.result.Failure?
    ensures Consistent(st) ==> Consistent(o.state)
    ensures o.state.allNamespaces == st.allNamespaces
    ensures requests <= o.requests
    decreases |clauses|
  {
    if |clauses| == 0 then Outcome(st, requests, Success(out))
    else
      assert HasUnsupported(clauses) <==> clauses[0].Unsupported? || HasUnsupported(clauses[1..]) by {
        if HasUnsupported(clauses[1..]) {
          var i :| 0 <= i < |clauses[1..]| && clauses[1..][i].Unsupported?;
          assert clauses[i + 1].Unsupported?;
        }
        if HasUnsupported(clauses) && !clauses[0].Unsupported? {
          var i :| 0 <= i < |clauses| && clauses[i].Unsupported?;
          assert clauses[1..][i - 1].Unsupported?;
        }
      }
      match clauses[0]
      case Match(nodes) =>
        var m := RunNodes(c, st, nodes);
        if m.panic.Some? then Outcome(m.state, requests + m.requests, Failure(m.panic.value))
        else Run(c, lookup, m.state, clauses[1..], out, requests + m.requests)
      case Return(paths) =>
        (match ProjectPaths(out, st.snapshot, lookup, paths)
         case Failure(e) => Outcome(st, requests, Failure(e))
         case Success(out') => Run(c, lookup, st, clauses[1..], out', requests))
      case Unsupported(t) => Outcome(st, requests, Failure(UnknownClause(t)))
  }

  /**
   * `Execute`: a query from a fresh output document. Errors of node patterns
   * do not abort it; an unknown clause type does, with no document.
   */
  function Execute(c: Cluster, lookup: Lookup, st: State, query: seq<Clause>): (o: Outcome)
    ensures o.result.Failure? ==> o.result.error.Panic? || o.result.error.UnknownClause?
    ensures HasUnsupported(query) ==> o.result.Failure?
    ensures Consistent(st) ==> Consistent(o.state)
  {
    Run(c, lookup, st, query, map[], [])
  }

  /**
   * The clause loop runs a query in sequence: `a + b` is `a`, then, if `a`
   * succeeded, `b` from the state, list calls and output document `a` left.
   */
  lemma {:induction false} RunAppend(c: Cluster, lookup: Lookup, st: State, a: seq<Clause>, b: seq<Clause>,
                                     out: Document, requests: seq<ListRequest>)
    ensures var o := Run(c, lookup, st, a, out, requests);
            Run(c, lookup, st, a + b, out, requests)
              == if o.result.Failure? then o else Run(c, lookup, o.state, b, o.result.value, o.requests)
    decreases |a|
  {
    if |a| == 0 {
      assert a + b == b;
    } else {
      assert (a + b)[0] == a[0] && (a + b)[1..] == a[1..] + b;
      match a[0]
      case Match(nodes) =>
        var m := RunNodes(c, st, nodes);
        RunAppend(c, lookup, m.state, a[1..], b, out, requests + m.requests);
      case Return(paths) =>
        match ProjectPaths(out, st.snapshot, lookup, paths) {
          case Failure(_) =>
          case Success(out') => RunAppend(c, lookup, st, a[1..], b, out', requests);
        }
      case Unsupported(_) =>
    }
  }

  /**
   * `MATCH ... RETURN ...`: the output document is the return clause's paths
   * projected from the snapshot the match clause leaves, which is that of
   * the accumulated results once any alias is bound.
   */
  lemma MatchThenReturn(c: Cluster, lookup: Lookup, st: State, nodes: seq<NodePattern>, paths: seq<string>)
    ensures var m := RunNodes(c, st, nodes);
            var o := Execute(c, lookup, st, [Match(nodes), Return(paths)]);
            && (m.panic.Some? ==> o.result == Failure(m.panic.value))
            && (m.panic.None? ==> o.result == ProjectPaths(map[], m.state.snapshot, lookup, paths))
            && (Consistent(st) && m.panic.None? && m.state.results != map[] ==>
                  o.result == ProjectPaths(map[], Snapshot(m.state.results), lookup, paths))
            && o.requests == m.requests
            && o.state == m.state
  {
    var m := RunNodes(c, st, nodes);
    assert [Match(nodes)] + [Return(paths)] == [Match(nodes), Return(paths)];
    RunAppend(c, lookup, st, [Match(nodes)], [Return(paths)], map[], []);
    RunOneMatch(c, lookup, st, nodes, map[], []);
    assert [] + m.requests == m.requests;
    RunOneReturn(c, lookup, m.state, paths, map[], m.requests);
  }

  lemma RunOneMatch(c: Cluster, lookup: Lookup, st: State, nodes: seq<NodePattern>,
                    out: Document, requests: seq<ListRequest>)
    ensures var m := RunNodes(c, st, nodes);
            Run(c, lookup, st, [Match(nodes)], out, requests)
              == Outcome(m.state, requests + m.requests,
                         if m.panic.Some? then Failure(m.panic.value) else Success(out))
  {
    assert [Match(nodes)][1..] == [];
  }

  lemma RunOneReturn(c: Cluster, lookup: Lookup, st: State, paths: seq<string>,
                     out: Document, requests: seq<ListRequest>)
    ensures Run(c, lookup, st, [Return(paths)], out, requests)
              == Outcome(st, requests, ProjectPaths(out, st.snapshot, lookup, paths))
  {
    assert [Return(paths)][1..] == [];
  }

  // ---------------------------------------------------------------------
  // Properties of one node pattern

  /**
   * A non-name constraint after a name constraint: no list call, the
   * conflict error, and the accumulated results and snapshot as they were.
   * The namespace constraint, if any, has already been applied.
   */
  lemma ConflictMakesNoRequest(c: Cluster, st: State, n: NodePattern)
    requires AtMostOneNamespace(n.constraints)
    requires NameThenOther(WithoutNamespaces(n.constraints))
    ensures var step := RunNode(c, st, n);
            && step.request.None?
            && step.error == Some(NameSelectorConflict)
            && step.state.results == st.results
            && step.state.snapshot == st.snapshot
            && step.state.namespace == FirstNamespace(n.constraints).GetOr(st.namespace)
  {
    RemoveSingleNamespace(n.constraints);
  }

  /**
   * The namespace constraint scopes the list call (unless all namespaces are
   * asked for) and appears in neither selector: both are built from the
   * remaining constraints. Without one, the call is scoped by the namespace
   * left over from earlier patterns.
   */
  lemma {:induction false} NamespaceScopesRequest(c: Cluster, st: State, n: NodePattern)
    requires AtMostOneNamespace(n.constraints)
    ensures var rest := WithoutNamespaces(n.constraints);
            RunNode(c, st, n).request.Some? <==>
              && !NameThenOther(rest)
              && FindGvr(c.discovery, c.parseGroupVersion, n.kind).Success?
              && c.parseLabelSelector(Join(LabelTerms(rest), ",")).Success?
    ensures RunNode(c, st, n).request.Some? ==>
            var r := RunNode(c, st, n).request.value;
            var rest := WithoutNamespaces(n.constraints);
            && r.namespace == (if st.allNamespaces then "" else FirstNamespace(n.constraints).GetOr(st.namespace))
            && r.fieldSelector == Join(FieldTerms(rest), ",")
            && c.parseLabelSelector(Join(LabelTerms(rest), ",")).Success?
            && r.labelSelector == c.parseLabelSelector(Join(LabelTerms(rest), ",")).value
            && r.resource == FindGvr(c.discovery, c.parseGroupVersion, n.kind).value
            && (forall k :: 0 <= k < |rest| ==> !IsNamespaceKey(rest[k].key))
  {
    var props := n.constraints;
    var rest := WithoutNamespaces(props);
    RemoveSingleNamespace(props);
    WithoutNamespacesClean(props);
    if RunNode(c, st, n).request.Some? {
      var st1 := if FirstNamespace(props).Some? then st.(namespace := FirstNamespace(props).value) else st;
      assert st1.namespace == FirstNamespace(props).GetOr(st.namespace);
      var sel := BuildSelectors(rest);
      var gvr := FindGvr(c.discovery, c.parseGroupVersion, n.kind);
      var labels := c.parseLabelSelector(sel.value.labels);
      var st2 := if st1.allNamespaces then st1.(namespace := "") else st1;
      assert RunNode(c, st, n).request.value == ListRequest(gvr.value, st2.namespace, sel.value.fields, labels.value);
    }
  }

  lemma {:induction false} WithoutNamespacesClean(props: seq<Constraint>)
    ensures forall k :: 0 <= k < |WithoutNamespaces(props)| ==> !IsNamespaceKey(WithoutNamespaces(props)[k].key)
  {
    if |props| > 0 {
      WithoutNamespacesClean(props[1..]);
    }
  }

  // ---------------------------------------------------------------------
  // Properties of whole queries

  /** A clause that is neither match nor return fails the query, wherever it stands. */
  lemma {:induction false} UnsupportedClauseFails(c: Cluster, lookup: Lookup, st: State, query: seq<Clause>, i: nat)
    requires i < |query| && query[i].Unsupported?
    ensures Execute(c, lookup, st, query).result.Failure?
  {
    assert HasUnsupported(query);
  }

  /**
   * A node pattern whose selectors conflict does not fail the query: its
   * error is dropped and the query goes on with no list call made.
   */
  lemma MatchErrorIsDropped(c: Cluster, lookup: Lookup, st: State, n: NodePattern)
    requires AtMostOneNamespace(n.constraints)
    requires NameThenOther(WithoutNamespaces(n.constraints))
    ensures var o := Execute(c, lookup, st, [Match([n])]);
            && o.result == Success(map[])
            && o.requests == []
            && o.state.results == st.results
  {
    ConflictMakesNoRequest(c, st, n);
    var step := RunNode(c, st, n);
    assert [n][1..] == [];
    assert RunNodes(c, step.state, []) == MatchStep(step.state, [], None);
    var m := RunNodes(c, st, [n]);
    assert m == MatchStep(step.state, [], None);
    var query := [Match([n])];
    assert query[1..] == [];
    assert Run(c, lookup, m.state, [], map[], [] + []) == Outcome(m.state, [], Success(map[]));
  }

  /** A query of return clauses only lists nothing and changes no state. */
  lemma {:induction false} ReturnOnlyIsReadOnly(c: Cluster, lookup: Lookup, st: State, clauses: seq<Clause>,
                                                out: Document, requests: seq<ListRequest>)
    requires forall i :: 0 <= i < |clauses| ==> clauses[i].Return?
    ensures Run(c, lookup, st, clauses, out, requests).state == st
    ensures Run(c, lookup, st, clauses, out, requests).requests == requests
    decreases |clauses|
  {
    if |clauses| > 0 {
      match ProjectPaths(out, st.snapshot, lookup, clauses[0].paths)
      case Failure(_) =>
      case Success(out') => ReturnOnlyIsReadOnly(c, lookup, st, clauses[1..], out', requests);
    }
  }
}

=== FILE: json.dfy ===
/**
 * The generic tree that `encoding/json` produces when it decodes into an
 * `interface{}`: the accumulated result snapshot, the flattened resource
 * documents and the output document are all values of this type.
 * A Go `nil` interface is `Null`.
 */
module JsonTree {

  datatype Json =
    | Null
    | Bool(b: bool)
    | Number(n: int)
    | Str(s: string)
    | Array(items: seq<Json>)
    | Object(fields: map<string, Json>)
}

=== FILE: projection.dfy ===
/**
 * Return-clause projection (`Execute`, the `ReturnClause` case): each path
 * is rooted at `$.`, split on `.`, and its segments are written into the
 * nested output document, the last one receiving the JSONPath lookup result.
 */
module Projection {
  import opened Wrappers
  import opened Strings
  import opened Errors
  import opened JsonTree

  /** The JSONPath evaluator, a library outside this model: `None` is a lookup error. */
  type Lookup = (Json, string) -> Option<Json>

  /** The path rooted at `$`: the given path is kept as its tail. */
  function NormalizePath(path: string): (r: string)
    ensures |r| > 0 && r[0] == '$'
    ensures |path| <= |r| <= |path| + 2 && r[|r| - |path|..] == path
  {
    if |path| > 0 && path[0] == '$' then path else "$." + path
  }

  /** Rooting is idempotent: a path already rooted projects the same segments and lookup. */
  lemma RootingIdempotent(path: string)
    ensures NormalizePath(NormalizePath(path)) == NormalizePath(path)
    ensures Segments(NormalizePath(path)) == Segments(path)
  {
  }

  /** `strings.Split(path, ".")[1:]`: the segments after the root. */
  function Segments(path: string): seq<string>
  {
    Split(NormalizePath(path), '.')[1..]
  }

  /** What the last segment receives: the lookup result, or `[]` on a miss. */
  function Leaf(found: Option<Json>): (r: Json)
    ensures found.None? ==> r == Array([])
    ensures found.Some? ==> r == found.value
  {
    found.GetOr(Array([]))
  }

  /** The value at a key path of a nested document, if every step is an object. */
  function At(m: map<string, Json>, path: seq<string>): Option<Json>
    decreases |path|
  {
    if |path| == 0 then Some(Object(m))
    else if path[0] !in m then None
    else if |path| == 1 then Some(m[path[0]])
    else match m[path[0]]
      case Object(f) => At(f, path[1..])
      case _ => None
  }

  /** Neither `nil` nor a map: the type assertion to a map panics on it. */
  predicate IsScalar(v: Json) {
    !v.Null? && !v.Object?
  }

  /** Some proper prefix of `path` ends at a value that is not a map and not `nil`. */
  ghost predicate Blocked(m: map<string, Json>, path: seq<string>) {
    exists j :: 1 <= j < |path| && At(m, path[..j]).Some? && IsScalar(At(m, path[..j]).value)
  }

  /** Neither path is a prefix of the other. */
  predicate Diverge(p: seq<string>, q: seq<string>)
    decreases |p|
  {
    |p| > 0 && |q| > 0 && (p[0] != q[0] || Diverge(p[1..], q[1..]))
  }

  /**
   * The drill-down loop: a missing or `nil` intermediate becomes a fresh map,
   * an existing map is reused, anything else fails the map type assertion.
   */
  function Place(m: map<string, Json>, path: seq<string>, leaf: Json): (r: Result<map<string, Json>, QueryError>)
    requires |path| >= 1
    ensures r.Failure? ==> r.error.Panic?
    ensures r.Success? ==> r.value.Keys == m.Keys + {path[0]}
    decreases |path|
  {
    var key := path[0];
    if |path| == 1 then Success(m[key := leaf])
    else if key in m && IsScalar(m[key]) then Failure(Panic(NotAMap(key)))
    else
      var child := if key in m && m[key].Object? then m[key].fields else map[];
      var child' :- Place(child, path[1..], leaf);
      Success(m[key := Object(child')])
  }

  lemma {:induction false} PlaceStores(m: map<string, Json>, path: seq<string>, leaf: Json)
    requires |path| >= 1
    requires Place(m, path, leaf).Success?
    ensures At(Place(m, path, leaf).value, path) == Some(leaf)
    decreases |path|
  {
    if |path| > 1 {
      var key := path[0];
      var child := if key in m && m[key].Object? then m[key].fields else map[];
      PlaceStores(child, path[1..], leaf);
    }
  }

  lemma {:induction false} PlaceKeepsOthers(m: map<string, Json>, path: seq<string>, leaf: Json, q: seq<string>)
    requires |path| >= 1
    requires Place(m, path, leaf).Success?
    requires Diverge(path, q)
    ensures At(Place(m, path, leaf).value, q) == At(m, q)
    decreases |path|
  {
    var key := path[0];
    if key == q[0] {
      var child := if key in m && m[key].Object? then m[key].fields else map[];
      PlaceKeepsOthers(child, path[1..], leaf, q[1..]);
      if !(key in m && m[key].Object?) {
        assert At(map[], q[1..]) == None;
      }
    }
  }

  lemma {:induction false} AtCons(m: map<string, Json>, path: seq<string>)
    requires |path| >= 2
    ensures path[0] in m && m[path[0]].Object? ==> At(m, path) == At(m[path[0]].fields, path[1..])
    ensures !(path[0] in m && m[path[0]].Object?) ==> At(m, path) == None
  {
  }

  lemma {:induction false} PlaceFailsIffBlocked(m: map<string, Json>, path: seq<string>, leaf: Json)
    requires |path| >= 1
    ensures Place(m, path, leaf).Failure? <==> Blocked(m, path)
    decreases |path|
  {
    var key := path[0];
    if |path| == 1 {
      assert !Blocked(m, path);
    } else if key in m && IsScalar(m[key]) {
      assert path[..1] == [key];
      assert At(m, path[..1]) == Some(m[key]);
    } else {
      var child := if key in m && m[key].Object? then m[key].fields else map[];
      var rest := path[1..];
      PlaceFailsIffBlocked(child, rest, leaf);
      forall j | 2 <= j < |path|
        ensures At(m, path[..j]) == At(child, rest[..j - 1])
      {
        AtCons(m, path[..j]);
        assert path[..j][1..] == rest[..j - 1];
        if !(key in m && m[key].Object?) {
          assert At(map[], rest[..j - 1]) == None;
        }
      }
      assert path[..1] == [key];
      if Blocked(m, path) {
        var j :| 1 <= j < |path| && At(m, path[..j]).Some? && IsScalar(At(m, path[..j]).value);
        assert j >= 2;
        assert 1 <= j - 1 < |rest| && At(child, rest[..j - 1]).Some? && IsScalar(At(child, rest[..j - 1]).value);
      }
      if Blocked(child, rest) {
        var j :| 1 <= j < |rest| && At(child, rest[..j]).Some? && IsScalar(At(child, rest[..j]).value);
        assert At(m, path[..j + 1]) == At(child, rest[..j]);
      }
    }
  }

  lemma PlaceSpec(m: map<string, Json>, path: seq<string>, leaf: Json)
    requires |path| >= 1
    ensures Place(m, path, leaf).Failure? <==> Blocked(m, path)
    ensures Place(m, path, leaf).Success? ==> At(Place(m, path, leaf).value, path) == Some(leaf)
    ensures Place(m, path, leaf).Success? ==>
      forall q :: Diverge(path, q) ==> At(Place(m, path, leaf).value, q) == At(m, q)
  {
    PlaceFailsIffBlocked(m, path, leaf);
    if Place(m, path, leaf).Success? {
      PlaceStores(m, path, leaf);
      forall q | Diverge(path, q)
        ensures At(Place(m, path, leaf).value, q) == At(m, q)
      {
        PlaceKeepsOthers(m, path, leaf, q);
      }
    }
  }

  /**
   * One return path: the output gains the path's segments as nested maps
   * with the lookup result (or `[]`) at the end. A path that has no `.`
   * after its root leaves the output as it was.
   */
  function ProjectPath(out: map<string, Json>, snapshot: Json, lookup: Lookup, path: string): (r: Result<map<string, Json>, QueryError>)
    ensures r.Failure? ==> r.error.Panic?
    ensures |Segments(path)| == 0 ==> r == Success(out)
    ensures |Segments(path)| > 0 ==>
      (r.Failure? <==> Blocked(out, Segments(path)))
    ensures |Segments(path)| > 0 && r.Success? ==>
      At(r.value, Segments(path)) == Some(Leaf(lookup(snapshot, NormalizePath(path))))
    ensures |Segments(path)| > 0 && r.Success? ==>
      forall q :: Diverge(Segments(path), q) ==> At(r.value, q) == At(out, q)
  {
    var parts := Segments(path);
    if |parts| == 0 then Success(out)
    else
      var leaf := Leaf(lookup(snapshot, NormalizePath(path)));
      PlaceSpec(out, parts, leaf);
      Place(out, parts, leaf)
  }

  /** The paths of one return clause, in order, into the same output document. */
  function ProjectPaths(out: map<string, Json>, snapshot: Json, lookup: Lookup, paths: seq<string>): (r: Result<map<string, Json>, QueryError>)
    ensures r.Failure? ==> r.error.Panic?
    decreases |paths|
  {
    if |paths| == 0 then Success(out)
    else
      var out' :- ProjectPath(out, snapshot, lookup, paths[0]);
      ProjectPaths(out', snapshot, lookup, paths[1..])
  }

  /**
   * No later path of `paths` reaches the key path `q`: each has no segments
   * or diverges from `q`.
   */
  predicate Untouched(paths: seq<string>, q: seq<string>) {
    forall j :: 0 <= j < |paths| ==> |Segments(paths[j])| == 0 || Diverge(Segments(paths[j]), q)
  }

  /**
   * The paths of one return clause write into one output document: a key
   * path no path reaches reads as before, and each path's leaf survives
   * unless a later path reaches it again.
   */
  lemma {:induction false} ProjectPathsFold(out: map<string, Json>, snapshot: Json, lookup: Lookup, paths: seq<string>)
    ensures var r := ProjectPaths(out, snapshot, lookup, paths);
            && (r.Success? ==> forall q :: Untouched(paths, q) ==> At(r.value, q) == At(out, q))
            && (r.Success? ==> forall i :: 0 <= i < |paths| && |Segments(paths[i])| > 0 && Untouched(paths[i + 1..], Segments(paths[i])) ==>
                  At(r.value, Segments(paths[i])) == Some(Leaf(lookup(snapshot, NormalizePath(paths[i])))))
    decreases |paths|
  {
    var r := ProjectPaths(out, snapshot, lookup, paths);
    if |paths| > 0 && r.Success? {
      var first := ProjectPath(out, snapshot, lookup, paths[0]);
      var rest := paths[1..];
      assert first.Success?;
      var out' := first.value;
      assert r == ProjectPaths(out', snapshot, lookup, rest);
      ProjectPathsFold(out', snapshot, lookup, rest);
      forall q | Untouched(paths, q)
        ensures At(r.value, q) == At(out, q)
      {
        assert |Segments(paths[0])| == 0 || Diverge(Segments(paths[0]), q);
        forall j | 0 <= j < |rest|
          ensures |Segments(rest[j])| == 0 || Diverge(Segments(rest[j]), q)
        {
          assert rest[j] == paths[j + 1];
        }
      }
      forall i | 0 <= i < |paths| && |Segments(paths[i])| > 0 && Untouched(paths[i + 1..], Segments(paths[i]))
        ensures At(r.value, Segments(paths[i])) == Some(Leaf(lookup(snapshot, NormalizePath(paths[i]))))
      {
        if i == 0 {
          assert paths[1..] == rest;
        } else {
          assert rest[i - 1] == paths[i];
          assert rest[i - 1 + 1..] == paths[i + 1..];
        }
      }
    }
  }

  /** `p` is a strict prefix of `q`: projecting `q` after `p` drills through `p`'s leaf. */
  predicate ProperPrefix(p: seq<string>, q: seq<string>) {
    |p| < |q| && q[..|p|] == p
  }

  /** Every proper prefix of a placed path reads as a map afterwards. */
  lemma {:induction false} PlacePrefixObject(m: map<string, Json>, path: seq<string>, leaf: Json, k: nat)
    requires |path| >= 1
    requires Place(m, path, leaf).Success?
    requires 1 <= k < |path|
    ensures At(Place(m, path, leaf).value, path[..k]).Some?
    ensures At(Place(m, path, leaf).value, path[..k]).value.Object?
    decreases |path|
  {
    var key := path[0];
    var child := if key in m && m[key].Object? then m[key].fields else map[];
    var child' := Place(child, path[1..], leaf).value;
    var m' := Place(m, path, leaf).value;
    assert m' == m[key := Object(child')];
    if k == 1 {
      assert path[..1] == [key];
    } else {
      PlacePrefixObject(child, path[1..], leaf, k - 1);
      AtCons(m', path[..k]);
      assert path[..k][1..] == path[1..][..k - 1];
    }
  }

  /** Two non-empty paths that do not diverge: one is a prefix of the other. */
  lemma {:induction false} NotDivergePrefix(p: seq<string>, q: seq<string>)
    requires |p| > 0 && |q| > 0 && !Diverge(p, q)
    ensures (|p| <= |q| && q[..|p|] == p) || (|q| < |p| && p[..|q|] == q)
    decreases |p|
  {
    if |p| > 1 && |q| > 1 {
      NotDivergePrefix(p[1..], q[1..]);
      if |p| <= |q| {
        assert q[..|p|] == [q[0]] + q[1..][..|p| - 1];
        assert p == [p[0]] + p[1..];
      } else {
        assert p[..|q|] == [p[0]] + p[1..][..|q| - 1];
        assert q == [q[0]] + q[1..];
      }
    }
  }

  /** Placing `p` does not block a path `q` that does not run through `p`'s leaf. */
  lemma PlaceKeepsUnblocked(m: map<string, Json>, p: seq<string>, leaf: Json, q: seq<string>)
    requires |p| >= 1
    requires Place(m, p, leaf).Success?
    requires !Blocked(m, q)
    requires !ProperPrefix(p, q)
    ensures !Blocked(Place(m, p, leaf).value, q)
  {
    var m' := Place(m, p, leaf).value;
    forall j | 1 <= j < |q|
      ensures !(At(m', q[..j]).Some? && IsScalar(At(m', q[..j]).value))
    {
      var qj := q[..j];
      assert !(At(m, qj).Some? && IsScalar(At(m, qj).value));
      if |p| <= j {
        assert q[..|p|] == qj[..|p|];
      }
      if Diverge(p, qj) {
        PlaceKeepsOthers(m, p, leaf, qj);
      } else {
        NotDivergePrefix(p, qj);
        PlacePrefixObject(m, p, leaf, j);
      }
    }
  }

  /**
   * A return clause succeeds when no path drills through a value that is
   * neither a map nor `nil`: none is blocked in the output it starts from,
   * and no path runs through the leaf an earlier path stored.
   */
  lemma {:induction false} ProjectPathsSucceeds(out: map<string, Json>, snapshot: Json, lookup: Lookup, paths: seq<string>)
    requires forall j :: 0 <= j < |paths| ==> !Blocked(out, Segments(paths[j]))
    requires forall i, j :: 0 <= i < j < |paths| && |Segments(paths[i])| > 0 ==>
               !ProperPrefix(Segments(paths[i]), Segments(paths[j]))
    ensures ProjectPaths(out, snapshot, lookup, paths).Success?
    decreases |paths|
  {
    if |paths| > 0 {
      var first := ProjectPath(out, snapshot, lookup, paths[0]);
      var s0 := Segments(paths[0]);
      assert first.Success?;
      var out' := first.value;
      var rest := paths[1..];
      forall j | 0 <= j < |rest|
        ensures !Blocked(out', Segments(rest[j]))
      {
        assert rest[j] == paths[j + 1];
        if |s0| > 0 {
          PlaceKeepsUnblocked(out, s0, Leaf(lookup(snapshot, NormalizePath(paths[0]))), Segments(rest[j]));
        }
      }
      forall i, j | 0 <= i < j < |rest| && |Segments(rest[i])| > 0
        ensures !ProperPrefix(Segments(rest[i]), Segments(rest[j]))
      {
        assert rest[i] == paths[i + 1] && rest[j] == paths[j + 1];
      }
      ProjectPathsSucceeds(out', snapshot, lookup, rest);
    }
  }

  /**
   * `$.a.b.c1` then `$.a.b.c2` (dot-free segments, `c1 != c2`): the second
   * path reuses the maps the first created, so both leaves end up side by
   * side under `a.b`.
   */
  lemma SiblingPaths(snapshot: Json, lookup: Lookup, a: string, b: string, c1: string, c2: string)
    requires NoSep([a, b, c1], '.') && NoSep([a, b, c2], '.')
    requires c1 != c2
    ensures var p1 := "$." + Join([a, b, c1], ".");
            var p2 := "$." + Join([a, b, c2], ".");
            ProjectPaths(map[], snapshot, lookup, [p1, p2])
              == Success(map[a := Object(map[b := Object(map[c1 := Leaf(lookup(snapshot, p1)),
                                                             c2 := Leaf(lookup(snapshot, p2))])])])
  {
    var p1 := "$." + Join([a, b, c1], ".");
    var p2 := "$." + Join([a, b, c2], ".");
    var l1 := Leaf(lookup(snapshot, p1));
    var l2 := Leaf(lookup(snapshot, p2));
    RootedSegments([a, b, c1]);
    RootedSegments([a, b, c2]);
    assert NormalizePath(p1) == p1 && NormalizePath(p2) == p2;
    PlaceThreeFresh(a, b, c1, l1);
    var out1 := map[a := Object(map[b := Object(map[c1 := l1])])];
    assert ProjectPath(map[], snapshot, lookup, p1) == Success(out1);
    var path := [a, b, c2];
    assert path[1..] == [b, c2] && path[1..][1..] == [c2];
    var inner := map[c1 := l1];
    var inner' := map[c1 := l1, c2 := l2];
    assert Place(inner, [c2], l2) == Success(inner');
    var mid := map[b := Object(inner)];
    assert b in mid && !IsScalar(mid[b]) && mid[b].fields == inner;
    assert Place(mid, [b, c2], l2) == Success(mid[b := Object(inner')]);
    assert mid[b := Object(inner')] == map[b := Object(inner')];
    assert a in out1 && !IsScalar(out1[a]) && out1[a].fields == mid;
    assert Place(out1, path, l2) == Success(out1[a := Object(map[b := Object(inner')])]);
    assert out1[a := Object(map[b := Object(inner')])] == map[a := Object(map[b := Object(inner')])];
    var out2 := map[a := Object(map[b := Object(inner')])];
    assert ProjectPath(out1, snapshot, lookup, p2) == Success(out2);
    assert [p1, p2][1..] == [p2] && [p2][1..] == [];
    assert ProjectPaths(out2, snapshot, lookup, []) == Success(out2);
    assert ProjectPaths(out1, snapshot, lookup, [p2]) == Success(out2);
  }

  /** A path without the root marker is the same path with `$.` in front. */
  lemma ImplicitRoot(out: map<string, Json>, snapshot: Json, lookup: Lookup, path: string)
    requires !(|path| > 0 && path[0] == '$')
    ensures NormalizePath("$." + path) == NormalizePath(path)
    ensures ProjectPath(out, snapshot, lookup, path) == ProjectPath(out, snapshot, lookup, "$." + path)
  {
  }

  /** Without the root marker, the segments are the path split on `.`, all of them. */
  lemma {:induction false} UnrootedSegments(path: string)
    requires !(|path| > 0 && path[0] == '$')
    ensures Segments(path) == Split(path, '.')
  {
    var s := "$." + path;
    assert s[1..] == "." + path;
    assert ("." + path)[1..] == path;
    assert Split("." + path, '.') == [""] + Split(path, '.');
    assert Split(s, '.') == [['$'] + ""] + Split(path, '.');
  }

  /**
   * `$.a.b.c` for dot-free segments `a`, `b`, `c` projects to exactly those
   * segments.
   */
  lemma {:induction false} RootedSegments(segments: seq<string>)
    requires |segments| >= 1
    requires NoSep(segments, '.')
    ensures Segments("$." + Join(segments, ".")) == segments
  {
    var path := Join(segments, ".");
    var all := ["$"] + segments;
    assert NoSep(all, '.') by {
      forall i | 0 <= i < |all|
        ensures '.' !in all[i]
      {
        if i > 0 {
          assert all[i] == segments[i - 1];
        }
      }
    }
    assert all[1..] == segments;
    assert Join(all, ".") == "$" + "." + path;
    assert "$" + "." + path == "$." + path;
    SplitJoin(all, '.');
  }

  /**
   * An unrooted path of dot-free segments projects exactly those segments,
   * with the lookup made on the path rooted at `$.`.
   */
  lemma {:induction false} ProjectUnrooted(out: map<string, Json>, snapshot: Json, lookup: Lookup, segments: seq<string>)
    requires |segments| >= 1
    requires NoSep(segments, '.')
    requires !(|segments[0]| > 0 && segments[0][0] == '$')
    ensures ProjectPath(out, snapshot, lookup, Join(segments, "."))
         == Place(out, segments, Leaf(lookup(snapshot, "$." + Join(segments, "."))))
  {
    var path := Join(segments, ".");
    if |segments| > 1 {
      assert path == segments[0] + "." + Join(segments[1..], ".");
      if |segments[0]| == 0 {
        assert path[0] == '.';
      } else {
        assert path[0] == segments[0][0];
      }
    }
    UnrootedSegments(path);
    SplitJoin(segments, '.');
  }

  /** Three fresh segments become two new nested maps around the leaf. */
  lemma PlaceThreeFresh(a: string, b: string, c: string, leaf: Json)
    ensures Place(map[], [a, b, c], leaf) == Success(map[a := Object(map[b := Object(map[c := leaf])])])
  {
    var path := [a, b, c];
    assert path[1..] == [b, c] && path[1..][1..] == [c];
    assert Place(map[], [c], leaf) == Success(map[c := leaf]);
    assert Place(map[], [b, c], leaf) == Success(map[b := Object(map[c := leaf])]);
  }
}

=== FILE: scenarios.dfy ===
/** Worked queries over a one-resource discovery listing. */
module Scenarios {
  import opened Wrappers
  import opened Strings
  import opened JsonTree
  import opened Discovery
  import opened Selectors
  import opened Projection
  import opened Executor

  const Pods := ApiResource("pods", "Pod", ["po"])
  const CoreListing := [ApiResourceList("v1", [Pods])]

  /** The plural name, the Kind and the short name all address the same coordinate. */
  lemma PodFormsResolveAlike(parseGroupVersion: string -> Option<GroupVersion>, id: string)
    requires parseGroupVersion("v1") == Some(GroupVersion("", "v1"))
    requires id in ["pods", "Pod", "po", "PODS", "Po"]
    ensures FindGvr(Success(CoreListing), parseGroupVersion, id) == Success(Gvr("", "v1", "pods"))
  {
    assert Matches(Pods, id) by {
      if id == "pods" || id == "PODS" {
        assert ToLower(id) == "pods";
        assert ToLower(ToLower(id)) == "pods";
        assert EqualFold(Pods.name, ToLower(id));
      } else if id == "Pod" {
        assert EqualFold(Pods.kind, id);
      } else {
        assert ToLower(id) == "po";
        assert ToLower(ToLower(id)) == "po";
        assert EqualFold(Pods.shortNames[0], ToLower(id));
      }
    }
    assert FirstIndexFrom(CoreListing[0].resources, id, 0) == Some(0);
    assert FirstMatch(CoreListing, id) == Some(Pos(0, 0));
  }

  /** A name that is no form of the one listed resource is not found. */
  lemma UnknownKindNotFound(parseGroupVersion: string -> Option<GroupVersion>)
    ensures FindGvr(Success(CoreListing), parseGroupVersion, "svc") == Failure(Errors.ResourceNotFound("svc"))
  {
    assert !Matches(Pods, "svc") by {
      assert ToLower("svc") == "svc";
      assert ToLower("pods") == "pods";
      assert ToLower("Pod") == "pod";
      assert ToLower("po") == "po";
      assert ToLower(ToLower("svc")) == "svc";
    }
    forall q: Pos
      ensures !MatchAt(CoreListing, q, "svc")
    {
    }
  }

  /**
   * `MATCH (p:Pod {namespace: "kube-system"}) RETURN p.metadata.name`, for
   * any alias, namespace and dot-free field names: one list call, scoped to
   * the namespace with empty selectors; the output nests alias, field and
   * sub-field, with the lookup of the rooted path against the snapshot that
   * binds the alias to the listed pods.
   */
  lemma PodsInNamespace(c: Cluster, lookup: Lookup, st: State, namespace: string, alias: string, field: string, sub: string)
    requires c.discovery == Success(CoreListing)
    requires c.parseGroupVersion("v1") == Some(GroupVersion("", "v1"))
    requires c.parseLabelSelector("") == Success("")
    requires !st.allNamespaces
    requires c.list(ListRequest(Gvr("", "v1", "pods"), namespace, "", "")).Success?
    requires NoSep([alias, field, sub], '.')
    requires !(|alias| > 0 && alias[0] == '$')
    ensures var request := ListRequest(Gvr("", "v1", "pods"), namespace, "", "");
            var pods := c.list(request).value;
            var path := Join([alias, field, sub], ".");
            var o := Execute(c, lookup, st,
                             [Match([NodePattern(alias, "Pod", [Constraint("namespace", namespace)])]),
                              Return([path])]);
            && o.requests == [request]
            && o.state.namespace == namespace
            && o.state.results == st.results[alias := pods]
            && o.result == Success(map[alias := Object(map[field := Object(map[sub :=
                 Leaf(lookup(Snapshot(st.results[alias := pods]), "$." + path))])])])
  {
    var request := ListRequest(Gvr("", "v1", "pods"), namespace, "", "");
    var n := NodePattern(alias, "Pod", [Constraint("namespace", namespace)]);
    PodsMatch(c, st, namespace, alias);
    var st1 := RunNodes(c, st, [n]).state;
    ProjectThreeUnrooted(st1.snapshot, lookup, alias, field, sub);
    MatchThenReturn(c, lookup, st, [n], [Join([alias, field, sub], ".")]);
  }

  /** The return half of `PodsInNamespace`: `alias.field.sub` as three nested keys. */
  lemma ProjectThreeUnrooted(snapshot: Json, lookup: Lookup, alias: string, field: string, sub: string)
    requires NoSep([alias, field, sub], '.')
    requires !(|alias| > 0 && alias[0] == '$')
    ensures var path := Join([alias, field, sub], ".");
            ProjectPaths(map[], snapshot, lookup, [path])
              == Success(map[alias := Object(map[field := Object(map[sub := Leaf(lookup(snapshot, "$." + path))])])])
  {
    var segments := [alias, field, sub];
    var path := Join(segments, ".");
    var leaf := Leaf(lookup(snapshot, "$." + path));
    ProjectUnrooted(map[], snapshot, lookup, segments);
    PlaceThreeFresh(alias, field, sub, leaf);
    assert [path][1..] == [];
  }

  /** The one node pattern of `PodsInNamespace`: listed in the namespace, alias bound. */
  lemma PodsNode(c: Cluster, st: State, namespace: string, alias: string)
    requires c.discovery == Success(CoreListing)
    requires c.parseGroupVersion("v1") == Some(GroupVersion("", "v1"))
    requires c.parseLabelSelector("") == Success("")
    requires !st.allNamespaces
    requires c.list(ListRequest(Gvr("", "v1", "pods"), namespace, "", "")).Success?
    ensures var request := ListRequest(Gvr("", "v1", "pods"), namespace, "", "");
            var step := RunNode(c, st, NodePattern(alias, "Pod", [Constraint("namespace", namespace)]));
            && step.request == Some(request)
            && step.error.None?
            && step.state.namespace == namespace
            && step.state.results == st.results[alias := c.list(request).value]
            && step.state.snapshot == Snapshot(step.state.results)
  {
    var props := [Constraint("namespace", namespace)];
    assert AtMostOneNamespace(props);
    RemoveSingleNamespace(props);
    assert props[1..] == [];
    assert WithoutNamespaces(props) == [];
    assert FirstNamespace(props) == Some(namespace);
    assert BuildSelectors([]) == Success(SelectorStrings("", ""));
    PodFormsResolveAlike(c.parseGroupVersion, "Pod");
  }

  /** The match half of `PodsInNamespace`: one node pattern scoped to the namespace. */
  lemma PodsMatch(c: Cluster, st: State, namespace: string, alias: string)
    requires c.discovery == Success(CoreListing)
    requires c.parseGroupVersion("v1") == Some(GroupVersion("", "v1"))
    requires c.parseLabelSelector("") == Success("")
    requires !st.allNamespaces
    requires c.list(ListRequest(Gvr("", "v1", "pods"), namespace, "", "")).Success?
    ensures var request := ListRequest(Gvr("", "v1", "pods"), namespace, "", "");
            var m := RunNodes(c, st, [NodePattern(alias, "Pod", [Constraint("namespace", namespace)])]);
            && m.requests == [request]
            && m.panic.None?
            && m.state.namespace == namespace
            && m.state.results == st.results[alias := c.list(request).value]
            && m.state.snapshot == Snapshot(m.state.results)
  {
    var n := NodePattern(alias, "Pod", [Constraint("namespace", namespace)]);
    PodsNode(c, st, namespace, alias);
    assert [n][1..] == [];
  }
}

=== FILE: selectors.dfy ===
/**
 * Selector building (`getNodeResouces`, first half): the namespace
 * constraint is taken out of a node pattern's constraint list, then name
 * constraints become the fields selector and every other constraint the
 * label selector.
 */
module Selectors {
  import opened Wrappers
  import opened Strings
  import opened Errors

  /** One `key: value` property of a node pattern. */
  datatype Constraint = Constraint(key: string, value: string)

  datatype Extraction = Extraction(namespace: Option<string>, remaining: seq<Constraint>)

  datatype SelectorStrings = SelectorStrings(fields: string, labels: string)

  predicate IsNamespaceKey(key: string) {
    key == "namespace" || key == "metadata.namespace"
  }

  predicate IsNameKey(key: string) {
    key == "name" || key == "metadata.name"
  }

  // ---------------------------------------------------------------------
  // Namespace extraction, as the removal loop behaves

  /**
   * One round of `for i, prop := range list` per `i`. The range reads `arr[i]`
   * from the backing array, which the in-place `append(list[:i], list[i+1:]...)`
   * shifts left; `len` is the length of the property list after the removals
   * so far. `list[i+1:]` panics once `i + 1` exceeds that length.
   */
  function RemoveFrom(arr: seq<Constraint>, len: nat, i: nat, ns: Option<string>): (r: Result<Extraction, QueryError>)
    requires len <= |arr| && i <= |arr|
    ensures r.Failure? ==> r.error.Panic?
    ensures r.Success? ==> |r.value.remaining| <= len
    decreases |arr| - i
  {
    if i == |arr| then Success(Extraction(ns, arr[..len]))
    else if IsNamespaceKey(arr[i].key) then
      if i + 1 > len then Failure(Panic(SliceBoundsOutOfRange(i + 1, len)))
      else RemoveFrom(arr[..i] + arr[i + 1..len] + arr[len - 1..], len - 1, i + 1, Some(arr[i].value))
    else RemoveFrom(arr, len, i + 1, ns)
  }

  function RemoveNamespaces(props: seq<Constraint>): (r: Result<Extraction, QueryError>)
    ensures r.Failure? ==> r.error.Panic?
    ensures r.Success? ==> |r.value.remaining| <= |props|
  {
    RemoveFrom(props, |props|, 0, None)
  }

  // Reference definitions

  function WithoutNamespaces(props: seq<Constraint>): seq<Constraint>
  {
    if |props| == 0 then []
    else (if IsNamespaceKey(props[0].key) then [] else [props[0]]) + WithoutNamespaces(props[1..])
  }

  function FirstNamespace(props: seq<Constraint>): Option<string>
  {
    if |props| == 0 then None
    else if IsNamespaceKey(props[0].key) then Some(props[0].value)
    else FirstNamespace(props[1..])
  }

  predicate AtMostOneNamespace(props: seq<Constraint>) {
    forall i, j :: 0 <= i < j < |props| && IsNamespaceKey(props[i].key) ==> !IsNamespaceKey(props[j].key)
  }

  lemma {:induction false} RemoveFromNoNamespace(arr: seq<Constraint>, len: nat, i: nat, ns: Option<string>)
    requires len <= |arr| && i <= |arr|
    requires forall k :: i <= k < |arr| ==> !IsNamespaceKey(arr[k].key)
    ensures RemoveFrom(arr, len, i, ns) == Success(Extraction(ns, arr[..len]))
    decreases |arr| - i
  {
    if i < |arr| {
      RemoveFromNoNamespace(arr, len, i + 1, ns);
    }
  }

  lemma {:induction false} RemoveFromSkips(arr: seq<Constraint>, len: nat, i: nat, j: nat, ns: Option<string>)
    requires len <= |arr| && i <= j <= |arr|
    requires forall k :: i <= k < j ==> !IsNamespaceKey(arr[k].key)
    ensures RemoveFrom(arr, len, i, ns) == RemoveFrom(arr, len, j, ns)
    decreases j - i
  {
    if i < j {
      RemoveFromSkips(arr, len, i + 1, j, ns);
    }
  }

  lemma {:induction false} WithoutNamespacesAppend(a: seq<Constraint>, b: seq<Constraint>)
    ensures WithoutNamespaces(a + b) == WithoutNamespaces(a) + WithoutNamespaces(b)
  {
    if |a| > 0 {
      WithoutNamespacesAppend(a[1..], b);
      assert (a + b)[1..] == a[1..] + b;
    } else {
      assert a + b == b;
    }
  }

  lemma {:induction false} WithoutNamespacesNone(props: seq<Constraint>)
    requires forall k :: 0 <= k < |props| ==> !IsNamespaceKey(props[k].key)
    ensures WithoutNamespaces(props) == props
    ensures FirstNamespace(props) == None
  {
    if |props| > 0 {
      WithoutNamespacesNone(props[1..]);
    }
  }

  lemma {:induction false} FirstNamespaceAt(props: seq<Constraint>, j: nat)
    requires j < |props| && IsNamespaceKey(props[j].key)
    requires forall k :: 0 <= k < j ==> !IsNamespaceKey(props[k].key)
    ensures FirstNamespace(props) == Some(props[j].value)
  {
    if j > 0 {
      FirstNamespaceAt(props[1..], j - 1);
    }
  }

  /** Removing the only namespace constraint, at index `j`, closes the gap it leaves. */
  lemma {:induction false} RemoveOnlyNamespaceAt(props: seq<Constraint>, j: nat)
    requires j < |props| && IsNamespaceKey(props[j].key)
    requires forall k :: 0 <= k < |props| && k != j ==> !IsNamespaceKey(props[k].key)
    ensures RemoveNamespaces(props) == Success(Extraction(Some(props[j].value), props[..j] + props[j + 1..]))
  {
    var n := |props|;
    RemoveFromSkips(props, n, 0, j, None);
    var arr := props[..j] + props[j + 1..n] + props[n - 1..];
    assert RemoveFrom(props, n, j, None) == RemoveFrom(arr, n - 1, j + 1, Some(props[j].value));
    forall k | j + 1 <= k < n
      ensures !IsNamespaceKey(arr[k].key)
    {
      if k < n - 1 {
        assert arr[k] == props[k + 1];
      } else {
        assert arr[k] == props[n - 1];
      }
    }
    RemoveFromNoNamespace(arr, n - 1, j + 1, Some(props[j].value));
    assert arr[..n - 1] == props[..j] + props[j + 1..];
  }

  /** Around the only namespace constraint, neither side holds one. */
  lemma AroundOnlyNamespace(props: seq<Constraint>, j: nat)
    requires j < |props|
    requires forall k :: 0 <= k < |props| && k != j ==> !IsNamespaceKey(props[k].key)
    ensures WithoutNamespaces(props[..j]) == props[..j]
    ensures WithoutNamespaces(props[j + 1..]) == props[j + 1..]
  {
    var pre := props[..j];
    var post := props[j + 1..];
    forall k | 0 <= k < |pre|
      ensures !IsNamespaceKey(pre[k].key)
    {
      assert pre[k] == props[k];
    }
    forall k | 0 <= k < |post|
      ensures !IsNamespaceKey(post[k].key)
    {
      assert post[k] == props[k + j + 1];
    }
    WithoutNamespacesNone(pre);
    WithoutNamespacesNone(post);
  }

  lemma {:induction false} WithoutOnlyNamespaceAt(props: seq<Constraint>, j: nat)
    requires j < |props| && IsNamespaceKey(props[j].key)
    requires forall k :: 0 <= k < |props| && k != j ==> !IsNamespaceKey(props[k].key)
    ensures WithoutNamespaces(props) == props[..j] + props[j + 1..]
    ensures FirstNamespace(props) == Some(props[j].value)
  {
    FirstNamespaceAt(props, j);
    AroundOnlyNamespace(props, j);
    assert props == props[..j] + [props[j]] + props[j + 1..];
    WithoutNamespacesSplice(props[..j], props[j], props[j + 1..]);
  }

  /** Filtering drops a namespace constraint between two namespace-free lists. */
  lemma WithoutNamespacesSplice(pre: seq<Constraint>, x: Constraint, post: seq<Constraint>)
    requires IsNamespaceKey(x.key)
    requires WithoutNamespaces(pre) == pre && WithoutNamespaces(post) == post
    ensures WithoutNamespaces(pre + [x] + post) == pre + post
  {
    var tail := [x] + post;
    WithoutNamespacesAppend([x], post);
    WithoutNamespacesDrop(x);
    assert WithoutNamespaces(tail) == [] + post == post;
    WithoutNamespacesAppend(pre, tail);
    assert pre + [x] + post == pre + tail;
  }

  lemma WithoutNamespacesDrop(x: Constraint)
    requires IsNamespaceKey(x.key)
    ensures WithoutNamespaces([x]) == []
  {
    assert [x][1..] == [];
  }

  /**
   * With at most one namespace constraint the removal loop is a plain
   * filter: that constraint's value becomes the namespace, and the other
   * constraints stay, in their order.
   */
  lemma {:induction false} RemoveSingleNamespace(props: seq<Constraint>)
    requires AtMostOneNamespace(props)
    ensures RemoveNamespaces(props) == Success(Extraction(FirstNamespace(props), WithoutNamespaces(props)))
  {
    if j :| 0 <= j < |props| && IsNamespaceKey(props[j].key) {
      forall k | 0 <= k < |props| && k != j
        ensures !IsNamespaceKey(props[k].key)
      {
      }
      RemoveOnlyNamespaceAt(props, j);
      WithoutOnlyNamespaceAt(props, j);
    } else {
      RemoveFromNoNamespace(props, |props|, 0, None);
      WithoutNamespacesNone(props);
      assert props[..|props|] == props;
    }
  }

  /**
   * `[ns a, ns b]`: after the first removal the list has one element, and the
   * range reads the stale second slot, so the second removal slices past the end.
   */
  lemma NamespacePairPanics(a: string, b: string)
    ensures RemoveNamespaces([Constraint("namespace", a), Constraint("namespace", b)])
         == Failure(Panic(SliceBoundsOutOfRange(2, 1)))
  {
    var props := [Constraint("namespace", a), Constraint("namespace", b)];
    var arr := [Constraint("namespace", b), Constraint("namespace", b)];
    assert props[..0] + props[1..2] + props[1..] == arr;
    assert IsNamespaceKey(props[0].key) && IsNamespaceKey(arr[1].key);
    assert RemoveFrom(props, 2, 0, None) == RemoveFrom(arr, 1, 1, Some(a));
  }

  /**
   * `[ns a, x, ns b]`: the second removal shifts `ns b` onto index 1 while the
   * stale slot 2 still holds it, and removing it a third time slices past
   * the one-element list.
   */
  lemma SeparatedNamespacesPanic(a: string, b: string, x: Constraint)
    requires !IsNamespaceKey(x.key)
    ensures RemoveNamespaces([Constraint("namespace", a), x, Constraint("namespace", b)])
         == Failure(Panic(SliceBoundsOutOfRange(3, 1)))
  {
    var nb := Constraint("namespace", b);
    var props := [Constraint("namespace", a), x, nb];
    var arr1 := [x, nb, nb];
    assert props[..0] + props[1..3] + props[2..] == arr1;
    assert RemoveFrom(props, 3, 0, None) == RemoveFrom(arr1, 2, 1, Some(a));
    assert arr1[..1] + arr1[2..2] + arr1[1..] == arr1;
    assert RemoveFrom(arr1, 2, 1, Some(a)) == RemoveFrom(arr1, 1, 2, Some(b));
  }

  /**
   * `[ns a, ns b, x]`: the shift moves `ns b` onto the index already visited,
   * so it stays in the list and later reaches the label selector.
   */
  lemma SecondNamespaceSurvives(a: string, b: string, x: Constraint)
    requires !IsNamespaceKey(x.key)
    ensures RemoveNamespaces([Constraint("namespace", a), Constraint("namespace", b), x])
         == Success(Extraction(Some(a), [Constraint("namespace", b), x]))
  {
    var props := [Constraint("namespace", a), Constraint("namespace", b), x];
    var arr := [Constraint("namespace", b), x, x];
    assert props[..0] + props[1..3] + props[2..] == arr;
    assert IsNamespaceKey(props[0].key);
    assert RemoveFrom(props, 3, 0, None) == RemoveFrom(arr, 2, 1, Some(a));
    RemoveFromNoNamespace(arr, 2, 1, Some(a));
    assert arr[..2] == [Constraint("namespace", b), x];
  }

  // ---------------------------------------------------------------------
  // Selector strings

  function Term(c: Constraint): string {
    if IsNameKey(c.key) then "metadata.name=" + c.value else c.key + "=" + c.value
  }

  /** The field-selector terms: one per name constraint, in order. */
  function FieldTerms(props: seq<Constraint>): seq<string>
  {
    if |props| == 0 then []
    else (if IsNameKey(props[0].key) then [Term(props[0])] else []) + FieldTerms(props[1..])
  }

  /** The label-selector terms: one per other constraint, in order. */
  function LabelTerms(props: seq<Constraint>): seq<string>
  {
    if |props| == 0 then []
    else (if IsNameKey(props[0].key) then [] else [Term(props[0])]) + LabelTerms(props[1..])
  }

  predicate HasOther(props: seq<Constraint>) {
    exists j :: 0 <= j < |props| && !IsNameKey(props[j].key)
  }

  /** Some constraint that is not a name constraint comes after a name constraint. */
  predicate NameThenOther(props: seq<Constraint>) {
    exists i, j :: 0 <= i < j < |props| && IsNameKey(props[i].key) && !IsNameKey(props[j].key)
  }

  /** The selector loop with its accumulators, each term followed by a comma. */
  function Scan(props: seq<Constraint>, fields: string, labels: string, hasName: bool): Result<SelectorStrings, QueryError>
    decreases |props|
  {
    if |props| == 0 then Success(SelectorStrings(fields, labels))
    else if IsNameKey(props[0].key) then
      Scan(props[1..], fields + Term(props[0]) + ",", labels, true)
    else if hasName then Failure(NameSelectorConflict)
    else Scan(props[1..], fields, labels + Term(props[0]) + ",", hasName)
  }

  lemma HasOtherCons(props: seq<Constraint>)
    requires |props| > 0
    ensures HasOther(props) <==> !IsNameKey(props[0].key) || HasOther(props[1..])
  {
    var rest := props[1..];
    if HasOther(rest) {
      var j :| 0 <= j < |rest| && !IsNameKey(rest[j].key);
      assert props[j + 1] == rest[j];
    }
    if HasOther(props) && IsNameKey(props[0].key) {
      var j :| 0 <= j < |props| && !IsNameKey(props[j].key);
      assert rest[j - 1] == props[j];
    }
  }

  lemma NameThenOtherCons(props: seq<Constraint>)
    requires |props| > 0
    ensures NameThenOther(props) <==> (IsNameKey(props[0].key) && HasOther(props[1..])) || NameThenOther(props[1..])
  {
    var rest := props[1..];
    if NameThenOther(props) {
      var i, j :| 0 <= i < j < |props| && IsNameKey(props[i].key) && !IsNameKey(props[j].key);
      assert rest[j - 1] == props[j];
      if i > 0 {
        assert rest[i - 1] == props[i];
      }
    }
    if IsNameKey(props[0].key) && HasOther(rest) {
      var j :| 0 <= j < |rest| && !IsNameKey(rest[j].key);
      assert props[j + 1] == rest[j];
    }
    if NameThenOther(rest) {
      var i, j :| 0 <= i < j < |rest| && IsNameKey(rest[i].key) && !IsNameKey(rest[j].key);
      assert props[i + 1] == rest[i] && props[j + 1] == rest[j];
    }
  }

  lemma TerminatedCons(acc: string, x: string, ys: seq<string>, sep: string)
    ensures acc + x + sep + Terminated(ys, sep) == acc + Terminated([x] + ys, sep)
  {
    assert ([x] + ys)[1..] == ys;
  }

  lemma {:induction false} ScanSpec(props: seq<Constraint>, fields: string, labels: string, hasName: bool)
    ensures var r := Scan(props, fields, labels, hasName);
            && (r.Failure? <==> (hasName && HasOther(props)) || NameThenOther(props))
            && (r.Failure? ==> r.error == NameSelectorConflict)
            && (r.Success? ==> r.value == SelectorStrings(fields + Terminated(FieldTerms(props), ","),
                                                    labels + Terminated(LabelTerms(props), ",")))
    decreases |props|
  {
    if |props| > 0 {
      var c := props[0];
      var rest := props[1..];
      HasOtherCons(props);
      NameThenOtherCons(props);
      if IsNameKey(c.key) {
        ScanSpec(rest, fields + Term(c) + ",", labels, true);
        assert FieldTerms(props) == [Term(c)] + FieldTerms(rest);
        assert LabelTerms(props) == LabelTerms(rest);
        TerminatedCons(fields, Term(c), FieldTerms(rest), ",");
      } else if !hasName {
        ScanSpec(rest, fields, labels + Term(c) + ",", hasName);
        assert LabelTerms(props) == [Term(c)] + LabelTerms(rest);
        assert FieldTerms(props) == FieldTerms(rest);
        TerminatedCons(labels, Term(c), LabelTerms(rest), ",");
      }
    } else {
      assert fields + Terminated([], ",") == fields;
      assert labels + Terminated([], ",") == labels;
    }
  }

  /**
   * The selector loop of `getNodeResouces`: name terms joined into the fields
   * selector, the other terms into the labels selector, in constraint order,
   * failing when a non-name constraint follows a name constraint.
   */
  function BuildSelectors(props: seq<Constraint>): (r: Result<SelectorStrings, QueryError>)
    ensures r.Failure? <==> NameThenOther(props)
    ensures r.Failure? ==> r.error == NameSelectorConflict
    ensures r.Success? ==> r.value.fields == Join(FieldTerms(props), ",")
    ensures r.Success? ==> r.value.labels == Join(LabelTerms(props), ",")
  {
    ScanSpec(props, "", "", false);
    assert "" + Terminated(FieldTerms(props), ",") == Terminated(FieldTerms(props), ",");
    assert "" + Terminated(LabelTerms(props), ",") == Terminated(LabelTerms(props), ",");
    TrimTerminatedIsJoin(FieldTerms(props), ",");
    TrimTerminatedIsJoin(LabelTerms(props), ",");
    var s :- Scan(props, "", "", false);
    Success(SelectorStrings(TrimSuffix(s.fields, ","), TrimSuffix(s.labels, ",")))
  }

  /**
   * `[ns a, ns b, x]` with `x` a label constraint: the surviving `ns b`
   * becomes the label term `namespace=b`, ahead of `x`'s term.
   */
  lemma SecondNamespaceInLabels(a: string, b: string, x: Constraint)
    requires !IsNamespaceKey(x.key) && !IsNameKey(x.key)
    ensures var ex := RemoveNamespaces([Constraint("namespace", a), Constraint("namespace", b), x]);
            && ex.Success?
            && ex.value.namespace == Some(a)
            && BuildSelectors(ex.value.remaining)
                 == Success(SelectorStrings("", "namespace=" + b + "," + x.key + "=" + x.value))
  {
    SecondNamespaceSurvives(a, b, x);
    var props := [Constraint("namespace", b), x];
    assert props[1..] == [x] && props[1..][1..] == [];
    assert |"namespace"| == 9 && |"metadata.name"| == 13 && |"name"| == 4;
    assert !IsNameKey(props[0].key);
    assert !NameThenOther(props);
    assert FieldTerms([x]) == [] + FieldTerms([]);
    assert FieldTerms(props) == [] + FieldTerms([x]);
    assert LabelTerms([x]) == [Term(x)] + LabelTerms([]);
    assert "namespace" + "=" == "namespace=";
    assert Term(props[0]) == "namespace=" + b;
    assert LabelTerms(props) == [Term(props[0])] + LabelTerms([x]);
    assert LabelTerms(props) == ["namespace=" + b, x.key + "=" + x.value];
    var terms := ["namespace=" + b, x.key + "=" + x.value];
    assert terms[1..] == [x.key + "=" + x.value];
    assert Join(terms, ",") == "namespace=" + b + "," + (x.key + "=" + x.value);
    assert "namespace=" + b + "," + (x.key + "=" + x.value) == "namespace=" + b + "," + x.key + "=" + x.value;
    var r := BuildSelectors(props);
    assert r.Success? && r.value.fields == Join([], ",") == "";
    assert r.value.labels == Join(terms, ",");
  }

  /** A label constraint before the name constraint is accepted: only the other order is caught. */
  lemma LabelBeforeNameAccepted(app: string, name: string)
    ensures BuildSelectors([Constraint("app", app), Constraint("name", name)])
         == Success(SelectorStrings("metadata.name=" + name, "app=" + app))
  {
    var props := [Constraint("app", app), Constraint("name", name)];
    assert props[1..] == [Constraint("name", name)];
    assert props[1..][1..] == [];
    assert FieldTerms(props[1..]) == [Term(props[1])] + FieldTerms([]);
    assert LabelTerms(props[1..]) == [] + LabelTerms([]);
    assert FieldTerms(props) == ["metadata.name=" + name];
    assert !IsNameKey(props[0].key);
    assert LabelTerms(props) == [Term(props[0])] + LabelTerms(props[1..]);
    assert "app" + "=" == "app=";
    assert LabelTerms(props) == ["app=" + app];
    assert !NameThenOther(props);
  }
}

=== FILE: strings.dfy ===
/**
 * The pieces of Go's `strings` package that the executor uses, on `seq<char>`.
 * Case folding covers the ASCII letters only.
 */
module Strings {

  /** `unicode.ToLower` restricted to ASCII. */
  function Lower(c: char): char {
    if 'A' <= c <= 'Z' then (c as int + 32) as char else c
  }

  function ToLower(s: string): (r: string)
    ensures |r| == |s|
  {
    seq(|s|, i requires 0 <= i < |s| => Lower(s[i]))
  }

  /** `strings.EqualFold`: equal once both sides are folded to lower case. */
  predicate EqualFold(a: string, b: string) {
    ToLower(a) == ToLower(b)
  }

  lemma ToLowerIdempotent(s: string)
    ensures ToLower(ToLower(s)) == ToLower(s)
  {
  }

  /** Lower-casing one side first does not change what `EqualFold` answers. */
  lemma EqualFoldLowered(a: string, b: string)
    ensures EqualFold(a, ToLower(b)) <==> EqualFold(a, b)
  {
    ToLowerIdempotent(b);
  }

  /** `strings.Join`. */
  function Join(xs: seq<string>, sep: string): string
  {
    if |xs| == 0 then ""
    else if |xs| == 1 then xs[0]
    else xs[0] + sep + Join(xs[1..], sep)
  }

  /** Every element followed by `sep`: what `s += x + sep` in a loop builds. */
  function Terminated(xs: seq<string>, sep: string): string
  {
    if |xs| == 0 then "" else xs[0] + sep + Terminated(xs[1..], sep)
  }

  /** `strings.TrimSuffix`. */
  function TrimSuffix(s: string, suffix: string): (r: string)
    ensures r == s || r + suffix == s
  {
    if |suffix| <= |s| && s[|s| - |suffix|..] == suffix then s[..|s| - |suffix|] else s
  }

  lemma {:induction false} TerminatedIsJoinPlusSep(xs: seq<string>, sep: string)
    requires |xs| >= 1
    ensures Terminated(xs, sep) == Join(xs, sep) + sep
  {
    if |xs| > 1 {
      TerminatedIsJoinPlusSep(xs[1..], sep);
    }
  }

  /**
   * Appending `x + sep` per element and trimming one trailing `sep` is a
   * join: no trailing separator, and the empty string for no elements.
   */
  lemma {:induction false} TrimTerminatedIsJoin(xs: seq<string>, sep: string)
    ensures TrimSuffix(Terminated(xs, sep), sep) == Join(xs, sep)
  {
    if |xs| >= 1 {
      TerminatedIsJoinPlusSep(xs, sep);
      var j := Join(xs, sep);
      assert (j + sep)[|j|..] == sep;
      assert (j + sep)[..|j|] == j;
    } else if |sep| > 0 {
      assert Terminated(xs, sep) == "";
    }
  }

  /** `strings.Split` with a one-character separator: n separators give n + 1 pieces. */
  function Split(s: string, sep: char): (parts: seq<string>)
    ensures |parts| >= 1
    decreases |s|
  {
    if |s| == 0 then [""]
    else
      var rest := Split(s[1..], sep);
      if s[0] == sep then [""] + rest else [[s[0]] + rest[0]] + rest[1..]
  }

  predicate NoSep(xs: seq<string>, sep: char) {
    forall i :: 0 <= i < |xs| ==> sep !in xs[i]
  }

  /** A join whose first element is extended by one leading character. */
  lemma JoinExtendHead(c: char, xs: seq<string>, sep: string)
    requires |xs| >= 1
    ensures Join([[c] + xs[0]] + xs[1..], sep) == [c] + Join(xs, sep)
  {
    var ys := [[c] + xs[0]] + xs[1..];
    assert ys[1..] == xs[1..];
  }

  /** Joining the pieces back with the separator gives the original string. */
  lemma {:induction false} JoinSplit(s: string, sep: char)
    ensures Join(Split(s, sep), [sep]) == s
    ensures NoSep(Split(s, sep), sep)
    decreases |s|
  {
    if |s| > 0 {
      var rest := Split(s[1..], sep);
      JoinSplit(s[1..], sep);
      assert s == [s[0]] + s[1..];
      if s[0] == sep {
        assert Split(s, sep) == [""] + rest;
        assert ([""] + rest)[1..] == rest;
      } else {
        var head := [s[0]] + rest[0];
        assert Split(s, sep) == [head] + rest[1..];
        JoinExtendHead(s[0], rest, [sep]);
        assert sep !in head;
        assert forall i :: 1 <= i < |rest| ==> ([head] + rest[1..])[i] == rest[i];
      }
    }
  }

  /** Splitting `a + t` where `a` has no separator extends the first piece of `t`. */
  lemma {:induction false} SplitPrefix(a: string, t: string, sep: char)
    requires sep !in a
    ensures Split(a + t, sep) == [a + Split(t, sep)[0]] + Split(t, sep)[1..]
    decreases |a|
  {
    if |a| > 0 {
      SplitPrefix(a[1..], t, sep);
      assert (a + t)[1..] == a[1..] + t;
      assert [a[0]] + (a[1..] + Split(t, sep)[0]) == a + Split(t, sep)[0];
    } else {
      var p := Split(t, sep);
      assert a + t == t;
      assert a + p[0] == p[0];
      assert p == [p[0]] + p[1..];
    }
  }

  /** Splitting a join of separator-free pieces gives the pieces back. */
  lemma {:induction false} SplitJoin(xs: seq<string>, sep: char)
    requires |xs| >= 1
    requires NoSep(xs, sep)
    ensures Split(Join(xs, [sep]), sep) == xs
  {
    if |xs| == 1 {
      SplitPrefix(xs[0], "", sep);
      assert xs[0] + "" == xs[0];
    } else {
      var tail := Join(xs[1..], [sep]);
      SplitJoin(xs[1..], sep);
      assert Split([sep] + tail, sep) == [""] + xs[1..] by {
        assert ([sep] + tail)[1..] == tail;
      }
      assert xs[0] + [sep] + tail == xs[0] + ([sep] + tail);
      SplitPrefix(xs[0], [sep] + tail, sep);
      assert xs[0] + "" == xs[0];
      assert xs == [xs[0]] + xs[1..];
    }
  }
}

=== FILE: wrappers.dfy ===
/** Option and Result values for lookups that can miss and steps that can fail. */
module Wrappers {

  datatype Option<+T> = None | Some(value: T) {

    predicate IsFailure() {
      None?
    }

    function PropagateFailure<U>(): Option<U>
      requires None?
    {
      None
    }

    function Extract(): T
      requires Some?
    {
      value
    }

    /** The wrapped value, or `default` when there is none. */
    function GetOr(default: T): T {
      match this
      case Some(v) => v
      case None => default
    }
  }

  datatype Result<+T, +E> = Success(value: T) | Failure(error: E) {

    predicate IsFailure() {
      Failure?
    }

    function PropagateFailure<U>(): Result<U, E>
      requires Failure?
    {
      Failure(error)
    }

    function Extract(): T
      requires Success?
    {
      value
    }
  }
}
